=== FILE: README.md ===
# Task recommendation engine and access rules, modelled in Dafny

This project models the core of a learning platform's back end: the service that recommends
tasks to a learner, and the small decision rules around it.

**Recommendations.** `get_user_recommendations` reads the learner's 50 most recent attempts.
With no attempts, it takes the cold-start path: medium-difficulty tasks (2..3), ordered by how
often anyone solved them, each with relevance 0.5. Otherwise it works out:

- the three subjects with the highest weighted score totals;
- a calibrated difficulty, the weighted mean difficulty of mastered attempts.

The candidates are the tasks the learner never attempted in a preferred subject. If there are
none, it uses every unattempted task. Each candidate is scored by:

- how close its difficulty is to the calibrated one;
- a bonus for a preferred subject;
- the text similarity of its problem to the problems the learner solved.

Candidates are sorted by relevance, ties in candidate order. Each carries a Russian explanation
string, and the first `n` are returned.

**Access rules.**

- The route decorators `require_role` and `require_admin_or_self` answer 401, 403, or call
  the handler.
- The dependency `require_roles` checks role names.
- The task-history service only serves a user's own data, unless the user is an admin.
- The metrics label maps a status code to its family ("4xx").
- The translation service translates a text only when it looks English; with no language
  detector, that means more ASCII letters than Cyrillic ones.

Modules, one per file:

| file | module | models |
|---|---|---|
| wrappers.dfy | `Wrappers` | `Option`, `Result` |
| sequences.dfy | `Sequences` | slicing (`Take`), filtering, distinctness |
| sorting.dfy | `Sorting` | a stable sort `SortBy` (Python `sorted`/`list.sort`, SQL `ORDER BY`) and its permutation, order and stability lemmas |
| task_store.dfy | `TaskStore` | the `tasks` and `task_history` tables and the engine's SQL queries, as filters over sequences |
| history_analysis.dfy | `HistoryAnalysis` | `_analyze_subjects`, `_analyze_difficulty` |
| ranking.dfy | `Ranking` | `RankedTask`, the score formulas, `_get_match_reason`, the ranking specification |
| cold_start.dfy | `ColdStart` | `_get_default_recommendations` |
| recommendation.dfy | `Recommendation` | the service object, `_rank_tasks`, `get_user_recommendations` |
| roles.dfy | `Roles` | user roles and HTTP errors |
| role_decorators.dfy | `RoleDecorators` | `require_role`, `require_admin`/`require_moderator`/`require_teacher`, `require_admin_or_self` |
| permission.dfy | `Permission` | `require_roles`, `require_admin`, `require_moderator`, `require_authenticated_user` |
| task_history_access.dfy | `TaskHistoryAccess` | `TaskHistoryService` |
| metrics.dfy | `Metrics` | `status_family` |
| translation.dfy | `Translation` | `_looks_english`, `translate_if_english` |

**How the pieces fit.**

- The loops of the source are methods:
  - `AnalyzeSubjects`, `AnalyzeDifficulty`, `PopularEntries` and `GetDefaultRecommendations`;
  - `Recommender.RankTasks` and `Recommender.GetUserRecommendations`.
- `MatchReason` has no loop. It is a method because the source builds its list of reasons by
  appending to it step by step.
- Each method is proved equal to a specification function. The lemmas state what the source
  promises about that function.
- The database is a value `Database(tasks, history)`. Each query is a function over it.
- Scores are `real`.
- The TF-IDF similarity is an oracle `similarity(corpus, problem)`, giving a value in [0, 1]
  or `None` when `transform` raises. Whether `fit` succeeds is the boolean `fitSucceeds`.
- The vectorizer that `_rank_tasks` refits is the `fittedOn` field of the `Recommender` class.

## Model

| member | source | states |
|---|---|---|
| TaskStore.FindTask | app/services/recommendation_service.py:75 | the joined task has the row's id; no task is found only when none has that id |
| TaskStore.JoinAll | app/services/recommendation_service.py:75 | the inner join never grows the history; when every row has its task, no row is dropped and the i-th record carries the i-th row's status and score with its task's subject, difficulty and problem |
| TaskStore.RecentRows | app/services/recommendation_service.py:65-81 | the user's rows, newest first, min(50, rows) of them, and all of them when the user has at most 50 |
| TaskStore.RecentRowsNewest | app/services/recommendation_service.py:65-81 | a row of the user that the `LIMIT 50` drops is no newer than any row it keeps |
| TaskStore.RecentHistory | app/services/recommendation_service.py:65-81 | never more than 50 attempts; exactly the kept rows in their newest-first order, each joined with its task |
| TaskStore.RecentHistoryShape | app/services/recommendation_service.py:65-81 | the history query returns at most 50 attempts, and none exactly when the user has no row joined to a task |
| TaskStore.RecentHistoryAttempted | app/services/recommendation_service.py:65-81 | every attempt read back names a task the user attempted |
| TaskStore.UnsolvedTasks | app/services/recommendation_service.py:122-128 | a task is returned exactly when it is in the table and its id is not among the user's attempted ids |
| TaskStore.CandidateTasks | app/services/recommendation_service.py:110-120 | a task is returned exactly when it is unattempted and, with preferred subjects, in one of them |
| TaskStore.PopularityRows | app/services/recommendation_service.py:192-205 | one row per task of difficulty 2..3, carrying its count of `solved` rows, and every such task has its row |
| TaskStore.PopularQueryKeepsTop | app/services/recommendation_service.py:192-208 | a medium task whose row the `LIMIT` cuts off never ranks above a row that is kept |
| TaskStore.PopularQuery | app/services/recommendation_service.py:192-208 | min(limit, medium tasks) rows, each a task of difficulty 2..3 with its count of `solved` rows |
| TaskStore.UnsolvedNeverAttempted | app/services/recommendation_service.py:110-128 | no candidate's id is among the user's attempted ids, over the whole history, and with preferred subjects every candidate is in one of them |
| HistoryAnalysis.FirstIndex | app/services/recommendation_service.py:85-91 | the index of the first attempt at a subject, or the length when there is none |
| HistoryAnalysis.FirstSeen | app/services/recommendation_service.py:84-91 | the dict's keys: distinct, every attempted subject, nothing else |
| HistoryAnalysis.FirstIndexAppend | app/services/recommendation_service.py:85-91 | a later attempt does not move the first attempt at a subject already seen |
| HistoryAnalysis.FirstSeenInOrder | app/services/recommendation_service.py:84-91 | the keys come in the order of their first attempts, as a dict keeps insertion order |
| HistoryAnalysis.Tally | app/services/recommendation_service.py:84-91 | one entry per subject seen |
| HistoryAnalysis.UnseenSubjectTotal | app/services/recommendation_service.py:91 | a subject not yet seen has total 0.0, the `get` default |
| HistoryAnalysis.FirstAttemptOrderSnoc | app/services/recommendation_service.py:85-91 | one more attempt keeps the keys in order of first attempt |
| HistoryAnalysis.TallyStep | app/services/recommendation_service.py:85-91 | one loop step adds score × weight to the subject's total and appends a new subject at the end of the key order |
| HistoryAnalysis.AnalyzeSubjects | app/services/recommendation_service.py:83-94 | the loop returns the top three subjects of the stably sorted tally |
| HistoryAnalysis.TallyItems | app/services/recommendation_service.py:91 | each tally item is a seen subject with the sum of score × weight over its attempts (1.5 solved, 0.7 attempted, 1.0 otherwise, missing score 0) |
| HistoryAnalysis.TopSubjectsSize | app/services/recommendation_service.py:93-94 | at most three subjects, exactly min(3, subjects seen); none only for an empty history |
| HistoryAnalysis.SortedTally | app/services/recommendation_service.py:93 | the sort is a permutation of the tally in non-increasing total order |
| HistoryAnalysis.TopSubjectsFromHistory | app/services/recommendation_service.py:94 | every preferred subject occurs in the history |
| HistoryAnalysis.TopSubjectsDistinct | app/services/recommendation_service.py:94 | no subject is returned twice |
| HistoryAnalysis.TopSubjectsOrdered | app/services/recommendation_service.py:93-94 | preferred subjects come in non-increasing total order |
| HistoryAnalysis.TopSubjectsKeepLargest | app/services/recommendation_service.py:93-94 | no subject left out has a larger total than a kept one |
| HistoryAnalysis.TopSubjectsTies | app/services/recommendation_service.py:85-93 | among equal totals the sort keeps the tally's order, which is the order of first attempts |
| HistoryAnalysis.Weight | app/services/recommendation_service.py:103 | the weight `max(score, 0.01)` is at least 0.01 and at least the score |
| HistoryAnalysis.MasteredDifficulties | app/services/recommendation_service.py:99-102 | at most one difficulty per attempt |
| HistoryAnalysis.MasteredDifficultiesContents | app/services/recommendation_service.py:99-102 | the difficulty of every mastered attempt is collected, and every collected value is the difficulty of a mastered attempt |
| HistoryAnalysis.MasteredWeights | app/services/recommendation_service.py:99-103 | one weight per collected difficulty, each at least 0.01 |
| HistoryAnalysis.SumOfWeights | app/services/recommendation_service.py:107 | weights of at least 0.01 sum to at least 0.01 per weight |
| HistoryAnalysis.AnalyzeDifficulty | app/services/recommendation_service.py:96-108 | the loop returns 2.5 without mastered attempts, else the weighted mean of mastered difficulties |
| HistoryAnalysis.NothingMastered | app/services/recommendation_service.py:101-104 | `diffs` stays empty exactly when no attempt is solved or scores above 0.7 |
| HistoryAnalysis.DefaultDifficulty | app/services/recommendation_service.py:104-105 | with no mastered attempt the result is 2.5 |
| HistoryAnalysis.PositiveTotalWeight | app/services/recommendation_service.py:103-108 | with a mastered attempt the total weight is at least 0.01, so the division is defined |
| HistoryAnalysis.MasteredDotBounds | app/services/recommendation_service.py:108 | the weighted sum lies between the least and greatest difficulty times the total weight |
| HistoryAnalysis.CalibratedWithinBounds | app/services/recommendation_service.py:99-108 | the calibrated difficulty lies between the least and greatest mastered difficulty |
| HistoryAnalysis.SingleMastered | app/services/recommendation_service.py:99-108 | a single mastered attempt yields exactly its own difficulty |
| HistoryAnalysis.OneSolvedAttempt | app/services/recommendation_service.py:83-108 | one solved algebra attempt of score 0.9 at difficulty 3 gives ["algebra"] and 3.0 |
| Ranking.DifficultyScore | app/services/recommendation_service.py:152 | the difficulty fit lies in (0, 1] and is 1 exactly at the calibrated difficulty |
| Ranking.SubjectScore | app/services/recommendation_service.py:154 | the bonus is 1.5 or 1.0, and crosses 1.2 exactly for a preferred subject |
| Ranking.SolvedProblems | app/services/recommendation_service.py:138 | one problem per solved attempt, in history order, repeats kept: as many problems as solved attempts, the i-th being the i-th solved attempt's problem |
| Ranking.SimilarityScore | app/services/recommendation_service.py:156-164 | the similarity lies in [0, 1]; it is 0 when text similarity is off or `transform` raises, else the oracle's value |
| Ranking.MatchReason | app/services/recommendation_service.py:181-189 | the loop builds the clauses whose thresholds are crossed, joined by " и ", or "новый вызов" |
| Ranking.JoinHead | app/services/recommendation_service.py:189 | a joined string starts with its first part |
| Ranking.ReasonDefaultExactly | app/services/recommendation_service.py:183-189 | the reason is "новый вызов" exactly when no threshold is crossed |
| Ranking.ClausesSelected | app/services/recommendation_service.py:183-188 | each clause appears exactly when its threshold is crossed, in the order difficulty, subject, similarity |
| Ranking.SubjectClauseExactlyWhenPreferred | app/services/recommendation_service.py:185-186 | the subject clause appears exactly when the subject is preferred |
| Ranking.Entry | app/services/recommendation_service.py:150-176 | an entry keeps the candidate's id, subject, problem and difficulty, with relevance in (0.3, 1.15] |
| Ranking.Entries | app/services/recommendation_service.py:147-176 | one entry per candidate, the i-th scored from the i-th candidate |
| Ranking.DifficultyScoreMaximal | app/services/recommendation_service.py:152 | no task fits better than one at the calibrated difficulty |
| Ranking.SimilarityDisabled | app/services/recommendation_service.py:138-164 | with fewer than two solved problems, or a failing fit, every similarity is 0 |
| Ranking.RankedProperties | app/services/recommendation_service.py:147-179 | one entry per candidate (a permutation of the entries), relevance non-increasing, equal relevances in candidate order |
| Ranking.RankedFromCandidates | app/services/recommendation_service.py:147-179 | every ranked entry is the entry of some candidate |
| Ranking.SimilarityBreaksTie | app/services/recommendation_service.py:152-166 | of two candidates equal in difficulty and preference, the more similar one has higher relevance |
| Ranking.HigherRelevanceFirst | app/services/recommendation_service.py:178 | in the ranked list, an entry of strictly higher relevance comes before one of lower relevance |
| ColdStart.Popular | app/services/recommendation_service.py:212-220 | a cold-start item keeps the task's fields, with relevance 0.5 and the popularity reason |
| ColdStart.Defaults | app/services/recommendation_service.py:209-222 | at most `n` items, each with relevance 0.5, the popularity reason and difficulty in [2, 3] |
| ColdStart.PopularEntries | app/services/recommendation_service.py:209-222 | the loop makes one recommendation per row, the k-th from the k-th row |
| ColdStart.GetDefaultRecommendations | app/services/recommendation_service.py:191-222 | the first `n` of the `2n` query rows become the recommendations, equal to `Defaults` |
| ColdStart.PopularityRowFacts | app/services/recommendation_service.py:192-205 | every query row is a task of difficulty 2..3 carrying its count of `solved` rows |
| ColdStart.DefaultsShape | app/services/recommendation_service.py:192-222 | min(n, medium tasks) items, each with relevance 0.5, the popularity reason and difficulty in [2, 3] |
| ColdStart.PopularRowsOrdered | app/services/recommendation_service.py:192-207 | the query's rows are ordered by solved count descending, then difficulty ascending, and carry their true solved counts |
| ColdStart.MostSolvedFirst | app/services/recommendation_service.py:192-210 | the first item is a most-solved medium task |
| Recommendation.FittedOn | app/services/recommendation_service.py:158-161 | the fitted oracle gives similarities in [0, 1] against the fitted corpus |
| Recommendation.Recommend | app/services/recommendation_service.py:43-63 | at most `n` items; for an empty history all have relevance 0.5 and the popularity reason, otherwise relevance in (0.3, 1.15] |
| Recommendation.Recommender.constructor | app/services/recommendation_service.py:27-41 | a new service has not fitted its vectorizer |
| Recommendation.ScoreCandidate | app/services/recommendation_service.py:149-176 | one candidate's entry: its difficulty, subject and similarity scores, relevance 0.4·d + 0.3·s + 0.3·sim in (0.3, 1.15], and its reason |
| Recommendation.Recommender.RankTasks | app/services/recommendation_service.py:130-179 | refits on the solved problems when there are at least two and the fit succeeds, and returns the stably sorted entries |
| Recommendation.Recommender.GetUserRecommendations | app/services/recommendation_service.py:43-63 | returns the cold start for an empty history, else the first `n` ranked candidates |
| Recommendation.CandidatesAreUnsolved | app/services/recommendation_service.py:110-128 | every subject-filtered candidate is also an unsolved task |
| Recommendation.SelectCandidates | app/services/recommendation_service.py:58-60 | a task is in the pool exactly when it is unattempted and, unless the subject-filtered pool is empty, in a preferred subject; an empty filtered pool falls back to all of `UnsolvedTasks`; the pool is empty only when every task was attempted |
| Recommendation.ColdStartExactly | app/services/recommendation_service.py:49-53 | a user without history gets the cold start, every item with relevance 0.5 and the popularity reason |
| Recommendation.NeverRecommendsAttempted | app/services/recommendation_service.py:55-63 | with history, no recommended task was ever attempted by the user |
| Recommendation.HistoryPath | app/services/recommendation_service.py:55-63 | with history, the result is the first `n` ranked pool entries |
| Recommendation.RankedTake | app/services/recommendation_service.py:63 | the first `n` ranked entries are min(n, pool size), in non-increasing relevance within (0.3, 1.15] |
| Recommendation.RankedRecommendations | app/services/recommendation_service.py:55-63 | with history, min(n, pool size) items in non-increasing relevance within (0.3, 1.15] |
| Recommendation.AtMostN | app/services/recommendation_service.py:49-63 | never more than `n` recommendations |
| Roles.RoleValue | app/models/user_role.py:4-8 | every role value is a non-empty string |
| Roles.RoleValueInjective | app/models/user_role.py:4-8 | distinct roles have distinct values |
| RoleDecorators.RequireRole | app/decorators/role_decorators.py:7-26 | 401 without a user; 403 for a role not allowed; otherwise the handler's result for the unchanged arguments |
| RoleDecorators.RequireAdmin | app/decorators/role_decorators.py:28-29 | admits exactly admins |
| RoleDecorators.RequireModerator | app/decorators/role_decorators.py:31-32 | admits exactly moderators and admins |
| RoleDecorators.RequireTeacher | app/decorators/role_decorators.py:34-35 | admits exactly teachers, moderators and admins |
| RoleDecorators.RequireRoleMonotone | app/decorators/role_decorators.py:18-24 | allowing more roles never refuses an admitted user |
| RoleDecorators.TeacherGateRefusesStudents | app/decorators/role_decorators.py:34-35 | the teacher gate refuses exactly students |
| RoleDecorators.GatesNested | app/decorators/role_decorators.py:28-35 | admin ⊆ moderator ⊆ teacher gates; an admin passes all three |
| RoleDecorators.MissingUserUnauthorized | app/decorators/role_decorators.py:11-16 | a missing user gets 401 before any role check |
| RoleDecorators.RequireAdminOrSelf | app/decorators/role_decorators.py:37-53 | 401 without a user; allowed exactly for an admin or the user named by `user_id`; 403 otherwise |
| RoleDecorators.NoTargetOnlyAdmin | app/decorators/role_decorators.py:42-48 | without `user_id` only an admin is admitted |
| Permission.RoleNames | app/auth/permission.py:12 | the names of the user's role records, in order |
| Permission.AnyAllowed | app/auth/permission.py:14 | true exactly when some allowed role's value is among the names |
| Permission.RoleValues | app/auth/permission.py:17 | the values of the allowed roles, in order |
| Permission.RequireRoles | app/auth/permission.py:10-22 | admits exactly when some role record is named by an allowed role's value and returns the same user; otherwise 403 with the required values |
| Permission.RequireAdmin | app/auth/permission.py:24-25 | admits exactly users holding an "admin" record |
| Permission.RequireModerator | app/auth/permission.py:27-28 | admits exactly users holding a "moderator" or "admin" record |
| Permission.RequireAuthenticatedUser | app/auth/permission.py:30-31 | returns its argument |
| Permission.EmptyAllowedRejects | app/auth/permission.py:14-18 | an empty allowed list rejects everyone with "Access denied. Required roles: []." |
| Permission.AdminPassesModerator | app/auth/permission.py:24-28 | whoever passes `require_admin` passes `require_moderator` |
| Permission.RequireRolesMonotone | app/auth/permission.py:14 | allowing more roles never rejects an admitted user |
| Permission.ModeratorDeniedDetail | app/auth/permission.py:27-28 | the moderator refusal reads "Access denied. Required roles: ['moderator', 'admin']." |
| TaskHistoryAccess.EnsureOwnData | app/services/task_history_service.py:21-24 | refuses exactly a non-admin asking for another user's data |
| TaskHistoryAccess.LogAttempt | app/services/task_history_service.py:26-34 | the stored row carries the requester's id and the clock time, other fields unchanged |
| TaskHistoryAccess.GetUserHistory | app/services/task_history_service.py:36-39 | fetches the target's history exactly when allowed; a refusal issues no fetch |
| TaskHistoryAccess.GetUserHistoryByStatus | app/services/task_history_service.py:41-43 | fetches the caller's rows with that status |
| TaskHistoryAccess.GetTaskHistoryForUser | app/services/task_history_service.py:45-47 | fetches the caller's rows for the task |
| TaskHistoryAccess.GetTaskHistoryInPeriod | app/services/task_history_service.py:49-51 | fetches the caller's rows in the period |
| TaskHistoryAccess.GetLatestResult | app/services/task_history_service.py:53-55 | fetches the caller's latest attempt at the task |
| TaskHistoryAccess.RequestsScopedToCaller | app/services/task_history_service.py:26-55 | every request names the caller's id, except an admin's full-history read |
| TaskHistoryAccess.AdminReadsAnyHistory | app/services/task_history_service.py:36-39 | an admin reads any user's history, fetched by the target's id |
| TaskHistoryAccess.OthersHistoryDenied | app/services/task_history_service.py:36-37 | a non-admin asking for someone else's history is refused |
| Metrics.Decimal | app/metrics.py:12 | decimal digits, without a leading zero beyond "0" |
| Metrics.IntToString | app/metrics.py:12 | starts with "-" exactly for negative numbers |
| Metrics.StatusFamily | app/metrics.py:11-12 | the label ends in "xx" |
| Metrics.DecimalRoundTrip | app/metrics.py:12 | reading the digits back gives the number |
| Metrics.DecimalInjective | app/metrics.py:12 | different numbers have different digits |
| Metrics.IntToStringInjective | app/metrics.py:12 | different integers print differently |
| Metrics.SameFamily | app/metrics.py:11-12 | two codes share a label exactly when `code // 100` agrees |
| Metrics.KnownFamilies | app/metrics.py:12 | 200..299 give "2xx" and 404 gives "4xx" |
| Metrics.ThreeDigitCodes | app/metrics.py:12 | a code in 100..999 has a three-character label led by its first digit |
| Translation.LatinCount | app/services/translation/translation_service.py:37 | the count never exceeds the length |
| Translation.CyrillicCount | app/services/translation/translation_service.py:38 | the count never exceeds the length |
| Translation.LooksEnglish | app/services/translation/translation_service.py:29-39 | with a detector that answers, English exactly when it answers "en"; without a detector, or when it raises, exactly when the Latin count exceeds the Cyrillic count |
| Translation.TranslateIfEnglish | app/services/translation/translation_service.py:49-50 | translates English-looking text and returns other text unchanged |
| Translation.LatinCountsAsciiLetters | app/services/translation/translation_service.py:37 | the Latin test counts exactly the ASCII letters |
| Translation.CountsDisjoint | app/services/translation/translation_service.py:37-38 | no character passes both the Latin and the Cyrillic test, and the two counts together never exceed the length |
| Translation.NoDetector | app/services/translation/translation_service.py:36-39 | without a detector, English exactly when ASCII letters outnumber Cyrillic ones |
| Translation.NoLatinNotEnglish | app/services/translation/translation_service.py:37-39 | empty text, and text without ASCII letters, do not look English |
| Translation.NoAsciiLetters | app/services/translation/translation_service.py:37 | text without ASCII letters has none to count |
| Translation.NotEnglishUnchanged | app/services/translation/translation_service.py:49-50 | text with no more ASCII than Cyrillic letters is returned unchanged |

## Left out

- TF-IDF fitting and cosine similarity (scikit-learn) are an oracle. It gives a value in [0, 1]
  or `None` per problem, against the corpus last fitted. Whether `fit` raises is the parameter
  `fitSucceeds`. The vectorizer's settings and vocabulary are not modelled.
- `_use_text` is always true, because scikit-learn is imported unconditionally. It is not a
  parameter of the model.
- When a failed `fit` has partly updated the vectorizer, that state is not modelled. `fittedOn`
  keeps its old value, and the similarity is unused in that call anyway.
- The SQL queries are filters over sequences; sessions, async execution and SQLAlchemy are not
  modelled.
- `ORDER BY` leaves ties in an unspecified order. The model fixes them to table order: by
  timestamp in the history query, and by solved count and difficulty in the cold-start query.
- The candidate queries have no `ORDER BY`. The model returns candidates in table order, so
  "ties in candidate order" means that order.
- `TaskStore.SolvedCount` counts rows directly instead of building the grouped CTE; the result
  is the same `COALESCE(cnt, 0)`.
- Scores are real numbers. IEEE rounding is not modelled.
- `n` is a natural number. A negative `n`, whose Python slice drops items from the end and
  whose SQL `LIMIT` would be negative, is not modelled.
- Attempt status is `Solved`, `Attempted` or any other status, compared as the source compares
  the strings 'solved' and 'attempted'. The solution-status enum file is not part of this model.
- Role values are the lowercase role names defined by `UserRole` in app/models/user_role.py.
  app/auth/permission.py imports a `UserRoleEnum` from that module, which defines only
  `UserRole`; the decorators import `UserRoleEnum` from app/enums/user_role.py, which is not part
  of this model. Both are modelled as the one datatype `Role` with these values.
- The history rows carry a `score`, and `log_attempt` stores `answer`, `score` and `feedback`.
  The `TaskHistory` table in app/models/task_history_table.py declares none of these columns,
  so the history query and `TaskHistory(**data.model_dump(), ...)` as written do not match
  that table. The model follows the schema that the service, the `TaskHistoryCreate` schema
  and the service tests assume: an attempt with an optional score.
- The decorators' keyword arguments are passed as `currentUser` and `userId`. The wrapped
  handler is a total function `call` of its other arguments; awaiting it is not modelled.
- `TaskHistoryService` returns the CRUD request it issues instead of the rows. The CRUD layer
  and logging are not modelled. `datetime.now()` is the parameter `now`, and timestamps and
  period bounds are integers.
- `_looks_english` takes the language detector as a parameter. `None` means langdetect is not
  installed; a detector result of `None` means detection raised. `str.isalpha` is a parameter
  that must hold on ASCII letters; no other character it accepts can change the count.
- `translate_text` (LaTeX masking, the translation provider, the glossary) is the parameter
  `translate`.
- `RankedTask.difficulty` is `float(difficulty or 0.0)`. Integer difficulties are converted
  exactly, so the model converts directly.

=== FILE: cold_start.dfy ===
/** `RecommendationService._get_default_recommendations`: recommendations for a user without history. */
module ColdStart {
  import opened Sequences
  import opened Sorting
  import opened TaskStore
  import opened Ranking

  const PopularReason := "популярная задача средней сложности"
  const PopularRelevance := 0.5

  /** The recommendation built from one row of the popularity query. */
  function Popular(row: PopularRow): (e: RankedTask)
    ensures e.id == row.task.id && e.subject == row.task.subject && e.problem == row.task.problem
    ensures e.difficulty == row.task.difficulty as real
    ensures e.relevance == PopularRelevance && e.matchReason == PopularReason
  {
    RankedTask(row.task.id, row.task.subject, row.task.problem, row.task.difficulty as real,
               PopularRelevance, PopularReason)
  }

  /** The first `n` of the `2 n` rows the query returns, each turned into a recommendation. */
  function Defaults(db: Database, n: nat): (r: seq<RankedTask>)
    ensures |r| <= n
    ensures forall e :: e in r ==>
              e.relevance == PopularRelevance && e.matchReason == PopularReason && 2.0 <= e.difficulty <= 3.0
  {
    var rows := Take(PopularQuery(db, 2 * n), n);
    seq(|rows|, i requires 0 <= i < |rows| => Popular(rows[i]))
  }

  /** The loop of `_get_default_recommendations`: one recommendation per row, in row order. */
  method PopularEntries(rows: seq<PopularRow>) returns (out: seq<RankedTask>)
    ensures |out| == |rows|
    ensures forall k :: 0 <= k < |rows| ==> out[k] == Popular(rows[k])
  {
    out := [];
    for i := 0 to |rows|
      invariant |out| == i
      invariant forall k :: 0 <= k < i ==> out[k] == Popular(rows[k])
    {
      var r := rows[i];
      out := out + [RankedTask(r.task.id, r.task.subject, r.task.problem, r.task.difficulty as real,
                               PopularRelevance, PopularReason)];
    }
  }

  /** `_get_default_recommendations`. */
  method GetDefaultRecommendations(db: Database, n: nat) returns (out: seq<RankedTask>)
    ensures out == Defaults(db, n)
  {
    var rows := PopularQuery(db, n * 2);
    out := PopularEntries(Take(rows, n));
  }

  /** Every popularity row is a medium task carrying its own count of `solved` rows. */
  lemma PopularityRowFacts(db: Database, row: PopularRow)
    requires row in multiset(PopularityRows(db))
    ensures row.task in db.tasks && MediumDifficulty(row.task)
    ensures row.solvedCount == SolvedCount(db, row.task.id)
  {
  }

  /**
   * The cold start returns `min(n, number of medium tasks)` recommendations, each the
   * recommendation of the corresponding popularity row, all with relevance 0.5, the popularity
   * reason and a difficulty between 2 and 3.
   */
  lemma DefaultsShape(db: Database, n: nat)
    ensures var r := Defaults(db, n);
            && |r| == (if n <= |MediumTasks(db)| then n else |MediumTasks(db)|)
            && |r| == |PopularQuery(db, n)|
            && (forall i :: 0 <= i < |r| ==> r[i] == Popular(PopularQuery(db, n)[i]))
            && (forall e :: e in r ==> e.relevance == 0.5 && e.matchReason == PopularReason)
            && (forall e :: e in r ==> 2.0 <= e.difficulty <= 3.0)
  {
    var sorted := SortBy(PopularityRows(db), MorePopular);
    TakeTake(sorted, 2 * n, n);
    SortByPermutation(PopularityRows(db), MorePopular);
    var r := Defaults(db, n);
    forall e | e in r ensures 2.0 <= e.difficulty <= 3.0 {
      var i :| 0 <= i < |r| && r[i] == e;
      assert sorted[i] in multiset(PopularityRows(db));
      PopularityRowFacts(db, sorted[i]);
    }
  }

  /**
   * The rows the cold start uses are ordered by descending solved count, ties by ascending
   * difficulty, and each carries the true count of `solved` rows for its task.
   */
  lemma PopularRowsOrdered(db: Database, n: nat)
    ensures var rows := PopularQuery(db, n);
            && (forall i :: 0 <= i < |rows| ==>
                  rows[i].solvedCount == SolvedCount(db, rows[i].task.id) && rows[i].task in db.tasks)
            && (forall i, j :: 0 <= i < j < |rows| ==>
                  rows[i].solvedCount > rows[j].solvedCount
                  || (rows[i].solvedCount == rows[j].solvedCount && rows[i].task.difficulty <= rows[j].task.difficulty))
  {
    var sorted := SortBy(PopularityRows(db), MorePopular);
    SortByPermutation(PopularityRows(db), MorePopular);
    MorePopularIsStrict();
    SortByOrdered(PopularityRows(db), MorePopular);
    var rows := PopularQuery(db, n);
    forall i | 0 <= i < |rows|
      ensures rows[i].solvedCount == SolvedCount(db, rows[i].task.id) && rows[i].task in db.tasks
    {
      assert sorted[i] in multiset(PopularityRows(db));
      PopularityRowFacts(db, sorted[i]);
    }
    forall i, j | 0 <= i < j < |rows|
      ensures rows[i].solvedCount > rows[j].solvedCount
              || (rows[i].solvedCount == rows[j].solvedCount && rows[i].task.difficulty <= rows[j].task.difficulty)
    {
      assert !MorePopular(sorted[j], sorted[i]);
    }
  }

  /** When at least one recommendation is asked for, the first one is a most-solved medium task. */
  lemma MostSolvedFirst(db: Database, n: nat, t: CandidateTask)
    requires n >= 1 && t in MediumTasks(db)
    ensures |Defaults(db, n)| >= 1
    ensures SolvedCount(db, Defaults(db, n)[0].id) >= SolvedCount(db, t.id)
  {
    DefaultsShape(db, n);
    var medium := MediumTasks(db);
    var rows := PopularityRows(db);
    var k :| 0 <= k < |medium| && medium[k] == t;
    assert rows[k] == PopularRow(t, SolvedCount(db, t.id));
    var sorted := SortBy(rows, MorePopular);
    SortByPermutation(rows, MorePopular);
    MorePopularIsStrict();
    SortByOrdered(rows, MorePopular);
    assert rows[k] in multiset(sorted);
    var m :| 0 <= m < |sorted| && sorted[m] == rows[k];
    assert m == 0 || !MorePopular(sorted[m], sorted[0]);
    assert sorted[0] in multiset(rows);
    PopularityRowFacts(db, sorted[0]);
  }
}

=== FILE: history_analysis.dfy ===
/**
 * History analysis of the recommendation engine: subject affinity (`_analyze_subjects`) and
 * calibrated difficulty (`_analyze_difficulty`), computed from the user's recent attempts.
 */
module HistoryAnalysis {
  import opened Wrappers
  import opened Sequences
  import opened Sorting
  import opened TaskStore

  /** `float(score or 0.0)`: a missing score counts as zero. */
  function ScoreValue(a: AttemptRecord): real {
    match a.score
    case Some(v) => v
    case None => 0.0
  }

  /** Status weight of an attempt in the subject affinity. */
  function StatusWeight(status: Status): real {
    match status
    case Solved => 1.5
    case Attempted => 0.7
    case OtherStatus => 1.0
  }

  // ---------------------------------------------------------------------------------------
  // Subject affinity

  /** What one attempt adds to its subject's total. */
  function Contribution(a: AttemptRecord): real {
    ScoreValue(a) * StatusWeight(a.status)
  }

  /** The accumulated total of `subject` over the attempts `h`. */
  function SubjectTotal(h: seq<AttemptRecord>, subject: string): real {
    if h == [] then 0.0
    else
      var last := h[|h| - 1];
      SubjectTotal(h[..|h| - 1], subject) + (if last.subject == subject then Contribution(last) else 0.0)
  }

  /** The index of the first attempt at `subject` in `h`, or `|h|` when there is none. */
  function FirstIndex(h: seq<AttemptRecord>, subject: string): (k: nat)
    ensures k <= |h|
    ensures k < |h| ==> h[k].subject == subject
    ensures forall i :: 0 <= i < k ==> h[i].subject != subject
  {
    if h == [] then 0
    else
      var k := FirstIndex(h[..|h| - 1], subject);
      assert forall i :: 0 <= i < |h| - 1 ==> h[..|h| - 1][i] == h[i];
      if k < |h| - 1 || h[|h| - 1].subject == subject then k else |h|
  }

  /** The subjects of `h`, each once, in order of first appearance (the key order of a Python dict). */
  function FirstSeen(h: seq<AttemptRecord>): (r: seq<string>)
    ensures forall i, j :: 0 <= i < j < |r| ==> r[i] != r[j]
    ensures forall i :: 0 <= i < |h| ==> h[i].subject in r
    ensures forall s :: s in r ==> exists i :: 0 <= i < |h| && h[i].subject == s
  {
    if h == [] then []
    else
      var prev := FirstSeen(h[..|h| - 1]);
      var last := h[|h| - 1];
      assert forall i :: 0 <= i < |h| - 1 ==> h[i] == h[..|h| - 1][i];
      if last.subject in prev then prev else prev + [last.subject]
  }

  /** Appending an attempt does not move the first attempt at a subject already present. */
  lemma FirstIndexAppend(h: seq<AttemptRecord>, a: AttemptRecord, subject: string)
    requires FirstIndex(h, subject) < |h|
    ensures FirstIndex(h + [a], subject) == FirstIndex(h, subject)
  {
    assert (h + [a])[..|h|] == h;
  }

  /** Appending an attempt appends its subject to the keys when it is new. */
  lemma FirstSeenSnoc(h: seq<AttemptRecord>, a: AttemptRecord)
    ensures FirstSeen(h + [a]) == if a.subject in FirstSeen(h) then FirstSeen(h) else FirstSeen(h) + [a.subject]
  {
    assert (h + [a])[..|h|] == h;
  }

  /** An appended attempt at a new subject is the first attempt at it. */
  lemma FirstIndexOfNew(h: seq<AttemptRecord>, a: AttemptRecord)
    requires a.subject !in FirstSeen(h)
    ensures FirstIndex(h + [a], a.subject) == |h|
  {
    assert (h + [a])[..|h|] == h;
    assert FirstIndex(h, a.subject) == |h| by {
      if FirstIndex(h, a.subject) < |h| {
        assert h[FirstIndex(h, a.subject)].subject in FirstSeen(h);
      }
    }
  }

  /** The keys are in order of first attempt. */
  ghost predicate InFirstAttemptOrder(h: seq<AttemptRecord>) {
    forall i, j :: 0 <= i < j < |FirstSeen(h)| ==> FirstIndex(h, FirstSeen(h)[i]) < FirstIndex(h, FirstSeen(h)[j])
  }

  /** Appending an attempt moves no first attempt at a subject already seen. */
  lemma SeenIndicesKept(init: seq<AttemptRecord>, last: AttemptRecord)
    ensures forall s :: s in FirstSeen(init) ==>
              FirstIndex(init + [last], s) == FirstIndex(init, s) < |init|
  {
    forall s | s in FirstSeen(init)
      ensures FirstIndex(init + [last], s) == FirstIndex(init, s) < |init|
    {
      var i :| 0 <= i < |init| && init[i].subject == s;
      FirstIndexAppend(init, last, s);
    }
  }

  /** Appending an attempt keeps the keys in order of first attempt. */
  lemma FirstAttemptOrderSnoc(init: seq<AttemptRecord>, last: AttemptRecord)
    requires InFirstAttemptOrder(init)
    ensures InFirstAttemptOrder(init + [last])
  {
    var h := init + [last];
    var prev := FirstSeen(init);
    FirstSeenSnoc(init, last);
    SeenIndicesKept(init, last);
    if last.subject !in prev {
      FirstIndexOfNew(init, last);
    }
    var r := FirstSeen(h);
    forall i, j | 0 <= i < j < |r|
      ensures FirstIndex(h, r[i]) < FirstIndex(h, r[j])
    {
      assert r[i] == prev[i] && r[i] in prev;
      if j < |prev| {
        assert r[j] == prev[j] && r[j] in prev;
      }
    }
  }

  /** The subjects come out in the order of their first attempts, as a dict keeps its keys. */
  lemma {:induction false} FirstSeenInOrder(h: seq<AttemptRecord>)
    ensures forall i, j :: 0 <= i < j < |FirstSeen(h)| ==> FirstIndex(h, FirstSeen(h)[i]) < FirstIndex(h, FirstSeen(h)[j])
  {
    if h != [] {
      var init, last := h[..|h| - 1], h[|h| - 1];
      FirstSeenInOrder(init);
      FirstAttemptOrderSnoc(init, last);
      assert h == init + [last];
    }
  }

  /** A `(subject, total)` item of `subject_scores.items()`. */
  datatype SubjectTotalEntry = SubjectTotalEntry(subject: string, total: real)

  /** `subject_scores.items()`: every subject with its total, in first-seen order. */
  function Tally(h: seq<AttemptRecord>): (r: seq<SubjectTotalEntry>)
    ensures |r| == |FirstSeen(h)|
  {
    var subjects := FirstSeen(h);
    seq(|subjects|, i requires 0 <= i < |subjects| => SubjectTotalEntry(subjects[i], SubjectTotal(h, subjects[i])))
  }

  /** `key=lambda x: x[1], reverse=True`. */
  predicate HigherTotal(a: SubjectTotalEntry, b: SubjectTotalEntry) {
    a.total > b.total
  }

  function TotalOf(e: SubjectTotalEntry): real {
    e.total
  }

  function Subjects(entries: seq<SubjectTotalEntry>): (r: seq<string>)
    ensures |r| == |entries|
    ensures forall i :: 0 <= i < |r| ==> r[i] == entries[i].subject
  {
    seq(|entries|, i requires 0 <= i < |entries| => entries[i].subject)
  }

  /** The preferred subjects: the first three of the stably sorted tally. */
  function TopSubjects(h: seq<AttemptRecord>): seq<string> {
    Subjects(Take(SortBy(Tally(h), HigherTotal), 3))
  }

  /** A subject that never occurs has total zero (the `.get(subject, 0.0)` default). */
  lemma {:induction false} UnseenSubjectTotal(h: seq<AttemptRecord>, subject: string)
    requires subject !in FirstSeen(h)
    ensures SubjectTotal(h, subject) == 0.0
  {
    if h != [] {
      UnseenSubjectTotal(h[..|h| - 1], subject);
    }
  }

  /** The dict `totals` with key order `order` holds the tally of the prefix `h[..i]`. */
  ghost predicate TallyOfPrefix(h: seq<AttemptRecord>, i: nat, order: seq<string>, totals: map<string, real>)
    requires i <= |h|
  {
    && order == FirstSeen(h[..i])
    && (forall s :: s in totals <==> s in order)
    && (forall s :: s in totals ==> totals[s] == SubjectTotal(h[..i], s))
  }

  /** Extending the prefix by `h[i]` appends its subject to the key order when it is new. */
  lemma FirstSeenStep(h: seq<AttemptRecord>, i: nat)
    requires i < |h|
    ensures FirstSeen(h[..i + 1]) ==
              if h[i].subject in FirstSeen(h[..i]) then FirstSeen(h[..i]) else FirstSeen(h[..i]) + [h[i].subject]
  {
    var p := h[..i + 1];
    assert p[..|p| - 1] == h[..i] && p[|p| - 1] == h[i];
  }

  /** Extending the prefix by `h[i]` adds its contribution to its own subject only. */
  lemma SubjectTotalStep(h: seq<AttemptRecord>, i: nat, subject: string)
    requires i < |h|
    ensures SubjectTotal(h[..i + 1], subject) ==
              SubjectTotal(h[..i], subject) + (if h[i].subject == subject then Contribution(h[i]) else 0.0)
  {
    var p := h[..i + 1];
    assert p[..|p| - 1] == h[..i] && p[|p| - 1] == h[i];
  }

  /** Adding `h[i]`'s contribution to its subject's entry keeps every entry equal to its subject's total. */
  lemma TotalsStep(h: seq<AttemptRecord>, i: nat, totals: map<string, real>)
    requires i < |h|
    requires forall t :: t in totals <==> t in FirstSeen(h[..i])
    requires forall t :: t in totals ==> totals[t] == SubjectTotal(h[..i], t)
    ensures var s := h[i].subject;
            var totals' := totals[s := (if s in totals then totals[s] else 0.0) + Contribution(h[i])];
            forall t :: t in totals' ==> totals'[t] == SubjectTotal(h[..i + 1], t)
  {
    var s := h[i].subject;
    var totals' := totals[s := (if s in totals then totals[s] else 0.0) + Contribution(h[i])];
    forall t | t in totals' ensures totals'[t] == SubjectTotal(h[..i + 1], t) {
      SubjectTotalStep(h, i, t);
      if t == s && s !in totals {
        UnseenSubjectTotal(h[..i], s);
      }
    }
  }

  /** Adding the attempt `h[i]` to its subject's entry keeps the dict equal to the tally. */
  lemma TallyStep(h: seq<AttemptRecord>, i: nat, order: seq<string>, totals: map<string, real>,
                  order': seq<string>, totals': map<string, real>)
    requires i < |h|
    requires TallyOfPrefix(h, i, order, totals)
    requires order' == if h[i].subject in totals then order else order + [h[i].subject]
    requires totals' == totals[h[i].subject := (if h[i].subject in totals then totals[h[i].subject] else 0.0) + Contribution(h[i])]
    ensures TallyOfPrefix(h, i + 1, order', totals')
  {
    FirstSeenStep(h, i);
    TotalsStep(h, i, totals);
  }

  /** `_analyze_subjects`. */
  method AnalyzeSubjects(history: seq<AttemptRecord>) returns (preferred: seq<string>)
    ensures preferred == TopSubjects(history)
  {
    var totals: map<string, real> := map[];
    var order: seq<string> := [];
    var i := 0;
    while i < |history|
      invariant 0 <= i <= |history|
      invariant TallyOfPrefix(history, i, order, totals)
    {
      var a := history[i];
      var weight := 1.0;
      if a.status == Solved {
        weight := 1.5;
      } else if a.status == Attempted {
        weight := 0.7;
      }
      var score := match a.score case Some(v) => v case None => 0.0;
      assert score * weight == Contribution(a);
      ghost var order0, totals0 := order, totals;
      var previous := if a.subject in totals then totals[a.subject] else 0.0;
      if a.subject !in totals {
        order := order + [a.subject];
      }
      totals := totals[a.subject := previous + score * weight];
      TallyStep(history, i, order0, totals0, order, totals);
      i := i + 1;
    }
    assert history[..i] == history;
    var items := seq(|order|, j requires 0 <= j < |order| => SubjectTotalEntry(order[j], totals[order[j]]));
    assert items == Tally(history);
    var sorted := SortBy(items, HigherTotal);
    preferred := Subjects(Take(sorted, 3));
  }

  // ---------------------------------------------------------------------------------------
  // Calibrated difficulty

  /** An attempt counts as mastered when it was solved or scored above 0.7. */
  predicate Mastered(a: AttemptRecord) {
    a.status == Solved || ScoreValue(a) > 0.7
  }

  /** `max(score, 0.01)`. */
  function Weight(a: AttemptRecord): (w: real)
    ensures w >= 0.01 && w >= ScoreValue(a)
  {
    if ScoreValue(a) >= 0.01 then ScoreValue(a) else 0.01
  }

  /** The list `diffs`: the difficulty of every mastered attempt, in order. */
  function MasteredDifficulties(h: seq<AttemptRecord>): (r: seq<real>)
    ensures |r| <= |h|
  {
    if h == [] then []
    else
      var last := h[|h| - 1];
      MasteredDifficulties(h[..|h| - 1]) + (if Mastered(last) then [last.difficulty as real] else [])
  }

  /** `diffs` holds the difficulty of every mastered attempt and nothing else. */
  lemma {:induction false} MasteredDifficultiesContents(h: seq<AttemptRecord>)
    ensures forall i :: 0 <= i < |h| && Mastered(h[i]) ==> h[i].difficulty as real in MasteredDifficulties(h)
    ensures forall x :: x in MasteredDifficulties(h) ==>
              exists i :: 0 <= i < |h| && Mastered(h[i]) && h[i].difficulty as real == x
  {
    if h != [] {
      var init := h[..|h| - 1];
      MasteredDifficultiesContents(init);
      assert forall i :: 0 <= i < |init| ==> init[i] == h[i];
    }
  }

  /** The list `weights`: the weight of every mastered attempt, in order. */
  function MasteredWeights(h: seq<AttemptRecord>): (r: seq<real>)
    ensures |r| == |MasteredDifficulties(h)|
    ensures forall i :: 0 <= i < |r| ==> r[i] >= 0.01
  {
    if h == [] then []
    else
      var last := h[|h| - 1];
      MasteredWeights(h[..|h| - 1]) + (if Mastered(last) then [Weight(last)] else [])
  }

  /** `sum(xs)`. */
  function Sum(xs: seq<real>): real {
    if xs == [] then 0.0 else Sum(xs[..|xs| - 1]) + xs[|xs| - 1]
  }

  /** `d * w`, kept behind a name so that sums of products stay linear for the verifier. */
  function Product(d: real, w: real): real {
    d * w
  }

  /** `sum(d * w for d, w in zip(ds, ws))`. */
  function Dot(ds: seq<real>, ws: seq<real>): real
    requires |ds| == |ws|
  {
    if ds == [] then 0.0 else Dot(ds[..|ds| - 1], ws[..|ws| - 1]) + Product(ds[|ds| - 1], ws[|ws| - 1])
  }

  /** A sum of weights of at least 0.01 each is at least 0.01 per weight, so never zero when there is one. */
  lemma {:induction false} SumOfWeights(ws: seq<real>)
    requires forall i :: 0 <= i < |ws| ==> ws[i] >= 0.01
    ensures Sum(ws) >= 0.01 * |ws| as real
  {
    if ws != [] {
      SumOfWeights(ws[..|ws| - 1]);
    }
  }

  /** The calibrated difficulty: the weighted mean over mastered attempts, or 2.5 when there is none. */
  function CalibratedDifficulty(h: seq<AttemptRecord>): real {
    var ds, ws := MasteredDifficulties(h), MasteredWeights(h);
    if ds == [] then 2.5
    else
      SumOfWeights(ws);
      Dot(ds, ws) / Sum(ws)
  }

  /** `_analyze_difficulty`. */
  method AnalyzeDifficulty(history: seq<AttemptRecord>) returns (optimal: real)
    ensures optimal == CalibratedDifficulty(history)
  {
    var diffs: seq<real> := [];
    var weights: seq<real> := [];
    var i := 0;
    while i < |history|
      invariant 0 <= i <= |history|
      invariant diffs == MasteredDifficulties(history[..i])
      invariant weights == MasteredWeights(history[..i])
    {
      var a := history[i];
      var score := match a.score case Some(v) => v case None => 0.0;
      if a.status == Solved || score > 0.7 {
        diffs := diffs + [a.difficulty as real];
        weights := weights + [if score >= 0.01 then score else 0.01];
      }
      assert history[..i + 1][..i] == history[..i];
      i := i + 1;
    }
    assert history[..i] == history;
    if diffs == [] {
      return 2.5;
    }
    SumOfWeights(weights);
    var totalWeight := Sum(weights);
    optimal := Dot(diffs, weights) / totalWeight;
  }

  // ---------------------------------------------------------------------------------------
  // Properties of subject affinity

  /** Every item of the tally is a first-seen subject with its own total. */
  lemma TallyItems(h: seq<AttemptRecord>, e: SubjectTotalEntry)
    requires e in Tally(h)
    ensures e.subject in FirstSeen(h) && e.total == SubjectTotal(h, e.subject)
  {
  }

  /** At most three preferred subjects; exactly three when the history has that many; none only for no history. */
  lemma TopSubjectsSize(h: seq<AttemptRecord>)
    ensures |TopSubjects(h)| == if |FirstSeen(h)| < 3 then |FirstSeen(h)| else 3
    ensures TopSubjects(h) == [] <==> h == []
  {
    if h != [] {
      assert h[0].subject in FirstSeen(h);
    }
  }

  /** The sorted tally is a permutation of the tally, ordered by non-increasing total. */
  lemma SortedTally(h: seq<AttemptRecord>)
    ensures multiset(SortBy(Tally(h), HigherTotal)) == multiset(Tally(h))
    ensures Ordered(SortBy(Tally(h), HigherTotal), HigherTotal)
    ensures forall m :: 0 <= m < |SortBy(Tally(h), HigherTotal)| ==>
              var e := SortBy(Tally(h), HigherTotal)[m];
              e.subject in FirstSeen(h) && e.total == SubjectTotal(h, e.subject)
  {
    var tally := Tally(h);
    var sorted := SortBy(tally, HigherTotal);
    SortByPermutation(tally, HigherTotal);
    KeyOrderIsStrict(HigherTotal, TotalOf);
    SortByOrdered(tally, HigherTotal);
    forall m | 0 <= m < |sorted|
      ensures sorted[m].subject in FirstSeen(h) && sorted[m].total == SubjectTotal(h, sorted[m].subject)
    {
      assert sorted[m] in multiset(tally);
    }
  }

  /** Every preferred subject is the subject of some attempt in the history. */
  lemma TopSubjectsFromHistory(h: seq<AttemptRecord>)
    ensures forall i :: 0 <= i < |TopSubjects(h)| ==>
              exists k :: 0 <= k < |h| && h[k].subject == TopSubjects(h)[i]
  {
    SortedTally(h);
  }

  /** No subject is preferred twice. */
  lemma TopSubjectsDistinct(h: seq<AttemptRecord>)
    ensures Distinct(TopSubjects(h))
  {
    var sorted := SortBy(Tally(h), HigherTotal);
    var r := TopSubjects(h);
    SortedTally(h);
    assert Distinct(Tally(h));
    DistinctPermutation(sorted, Tally(h));
    forall i, j | 0 <= i < j < |r| ensures r[i] != r[j] {
      assert sorted[i] != sorted[j];
    }
  }

  /** The preferred subjects come in non-increasing order of total. */
  lemma TopSubjectsOrdered(h: seq<AttemptRecord>)
    ensures forall i, j :: 0 <= i < j < |TopSubjects(h)| ==>
              SubjectTotal(h, TopSubjects(h)[j]) <= SubjectTotal(h, TopSubjects(h)[i])
  {
    var sorted := SortBy(Tally(h), HigherTotal);
    SortedTally(h);
    forall i, j | 0 <= i < j < |TopSubjects(h)|
      ensures SubjectTotal(h, TopSubjects(h)[j]) <= SubjectTotal(h, TopSubjects(h)[i])
    {
      assert !HigherTotal(sorted[j], sorted[i]);
    }
  }

  /** No subject left out has a larger total than a preferred one. */
  lemma TopSubjectsKeepLargest(h: seq<AttemptRecord>, s: string, i: nat)
    requires s in FirstSeen(h) && s !in TopSubjects(h)
    requires i < |TopSubjects(h)|
    ensures SubjectTotal(h, s) <= SubjectTotal(h, TopSubjects(h)[i])
  {
    var tally := Tally(h);
    var sorted := SortBy(tally, HigherTotal);
    var r := TopSubjects(h);
    SortedTally(h);
    var e := SubjectTotalEntry(s, SubjectTotal(h, s));
    var k :| 0 <= k < |FirstSeen(h)| && FirstSeen(h)[k] == s;
    assert tally[k] == e;
    assert e in multiset(sorted);
    var m :| 0 <= m < |sorted| && sorted[m] == e;
    assert forall j :: 0 <= j < |r| ==> r[j] == sorted[j].subject;
    assert m >= |r|;
    assert !HigherTotal(sorted[m], sorted[i]);
  }

  /**
   * Ties: among subjects with the same total, the sorted tally (whose first three entries are
   * the preferred subjects) keeps the tally's order, which is the order of first attempts.
   */
  lemma TopSubjectsTies(h: seq<AttemptRecord>, total: real)
    ensures WithKey(SortBy(Tally(h), HigherTotal), TotalOf, total) == WithKey(Tally(h), TotalOf, total)
    ensures forall i, j :: 0 <= i < j < |Tally(h)| ==> FirstIndex(h, Tally(h)[i].subject) < FirstIndex(h, Tally(h)[j].subject)
  {
    SortByStable(Tally(h), HigherTotal, TotalOf, total);
    FirstSeenInOrder(h);
  }

  // ---------------------------------------------------------------------------------------
  // Properties of the calibrated difficulty

  /** The lists `diffs` and `weights` stay empty exactly when no attempt is mastered. */
  lemma {:induction false} NothingMastered(h: seq<AttemptRecord>)
    ensures MasteredDifficulties(h) == [] <==> forall i :: 0 <= i < |h| ==> !Mastered(h[i])
  {
    if h != [] {
      var init := h[..|h| - 1];
      assert forall i :: 0 <= i < |init| ==> init[i] == h[i];
      NothingMastered(init);
    }
  }

  /** With no mastered attempt the calibrated difficulty is the default 2.5. */
  lemma DefaultDifficulty(h: seq<AttemptRecord>)
    requires forall i :: 0 <= i < |h| ==> !Mastered(h[i])
    ensures CalibratedDifficulty(h) == 2.5
  {
    NothingMastered(h);
  }

  /** With a mastered attempt the total weight is positive: the division is defined. */
  lemma PositiveTotalWeight(h: seq<AttemptRecord>, k: nat)
    requires k < |h| && Mastered(h[k])
    ensures MasteredDifficulties(h) != []
    ensures Sum(MasteredWeights(h)) >= 0.01
  {
    NothingMastered(h);
    SumOfWeights(MasteredWeights(h));
  }

  lemma ProductBounds(d: real, w: real, lo: real, hi: real)
    requires w > 0.0 && lo <= d <= hi
    ensures Product(lo, w) <= Product(d, w) <= Product(hi, w)
  {
  }

  lemma ProductDistributes(c: real, a: real, b: real)
    ensures Product(c, a + b) == Product(c, a) + Product(c, b)
  {
  }

  lemma DotSnoc(ds: seq<real>, ws: seq<real>, d: real, w: real)
    requires |ds| == |ws|
    ensures Dot(ds + [d], ws + [w]) == Dot(ds, ws) + Product(d, w)
    ensures Sum(ws + [w]) == Sum(ws) + w
  {
    var a, b := ds + [d], ws + [w];
    assert a[..|ds|] == ds && b[..|ws|] == ws;
    assert a[|a| - 1] == d && b[|b| - 1] == w;
  }

  /** Weighted by positive weights, the sum of products lies between the bounds times the total weight. */
  lemma {:induction false} MasteredDotBounds(h: seq<AttemptRecord>, lo: real, hi: real)
    requires forall i :: 0 <= i < |h| && Mastered(h[i]) ==> lo <= h[i].difficulty as real <= hi
    ensures Product(lo, Sum(MasteredWeights(h))) <= Dot(MasteredDifficulties(h), MasteredWeights(h))
                                                 <= Product(hi, Sum(MasteredWeights(h)))
  {
    if h != [] {
      var init, last := h[..|h| - 1], h[|h| - 1];
      assert forall i :: 0 <= i < |init| ==> init[i] == h[i];
      MasteredDotBounds(init, lo, hi);
      var ds, ws := MasteredDifficulties(init), MasteredWeights(init);
      if Mastered(last) {
        var d, w := last.difficulty as real, Weight(last);
        assert MasteredDifficulties(h) == ds + [d] && MasteredWeights(h) == ws + [w];
        DotSnoc(ds, ws, d, w);
        ProductBounds(d, w, lo, hi);
        ProductDistributes(lo, Sum(ws), w);
        ProductDistributes(hi, Sum(ws), w);
      } else {
        assert MasteredDifficulties(h) == ds && MasteredWeights(h) == ws;
      }
    }
  }

  lemma DivideBounds(x: real, w: real, lo: real, hi: real)
    requires w > 0.0 && Product(lo, w) <= x <= Product(hi, w)
    ensures lo <= x / w <= hi
  {
  }

  /**
   * The calibrated difficulty lies between any lower and upper bounds of the mastered
   * difficulties, so between their minimum and maximum.
   */
  lemma CalibratedWithinBounds(h: seq<AttemptRecord>, k: nat, lo: real, hi: real)
    requires k < |h| && Mastered(h[k])
    requires forall i :: 0 <= i < |h| && Mastered(h[i]) ==> lo <= h[i].difficulty as real <= hi
    ensures lo <= CalibratedDifficulty(h) <= hi
  {
    PositiveTotalWeight(h, k);
    MasteredDotBounds(h, lo, hi);
    var total, weighted := Sum(MasteredWeights(h)), Dot(MasteredDifficulties(h), MasteredWeights(h));
    assert CalibratedDifficulty(h) == weighted / total;
    DivideBounds(weighted, total, lo, hi);
  }

  /** A single mastered attempt yields exactly its own difficulty. */
  lemma SingleMastered(h: seq<AttemptRecord>, k: nat)
    requires k < |h| && Mastered(h[k])
    requires forall i :: 0 <= i < |h| && i != k ==> !Mastered(h[i])
    ensures CalibratedDifficulty(h) == h[k].difficulty as real
  {
    var d := h[k].difficulty as real;
    CalibratedWithinBounds(h, k, d, d);
  }

  /** One solved algebra attempt with score 0.9 at difficulty 3. */
  lemma OneSolvedAttempt(a: AttemptRecord)
    requires a.status == Solved && a.score == Some(0.9) && a.subject == "algebra" && a.difficulty == 3
    ensures CalibratedDifficulty([a]) == 3.0
    ensures TopSubjects([a]) == ["algebra"]
  {
    SingleMastered([a], 0);
    TopSubjectsSize([a]);
    assert FirstSeen([a]) == ["algebra"];
  }
}

=== FILE: metrics.dfy ===
/** `status_family`: the HTTP status label of the request counter. */
module Metrics {
  function DigitChar(d: nat): (c: char)
    requires d < 10
    ensures '0' <= c <= '9'
  {
    ('0' as int + d) as char
  }

  function DigitValue(c: char): int {
    c as int - '0' as int
  }

  /** The decimal digits of `n`, most significant first, without leading zeros. */
  function Decimal(n: nat): (s: string)
    ensures 1 <= |s|
    ensures forall i :: 0 <= i < |s| ==> '0' <= s[i] <= '9'
    ensures (|s| == 1) <==> n < 10
    ensures |s| > 1 ==> s[0] != '0'
  {
    if n < 10 then [DigitChar(n)] else Decimal(n / 10) + [DigitChar(n % 10)]
  }

  /** The value a string of decimal digits denotes. */
  function DecimalValue(s: string): int {
    if s == [] then 0 else 10 * DecimalValue(s[..|s| - 1]) + DigitValue(s[|s| - 1])
  }

  /** Python's `str()` of an integer: a minus sign, then the digits of its magnitude. */
  function IntToString(i: int): (s: string)
    ensures 1 <= |s|
    ensures i < 0 <==> s[0] == '-'
  {
    if i < 0 then "-" + Decimal(-i) else Decimal(i)
  }

  /**
   * `f"{code // 100}xx"`.  Python's `//` rounds toward negative infinity; so does Dafny's `/`
   * when the divisor is positive.
   */
  function StatusFamily(code: int): (r: string)
    ensures |r| >= 3 && r[|r| - 2..] == "xx"
  {
    IntToString(code / 100) + "xx"
  }

  /** Reading back the digits gives the number. */
  lemma {:induction false} DecimalRoundTrip(n: nat)
    ensures DecimalValue(Decimal(n)) == n
  {
    var s := Decimal(n);
    if n >= 10 {
      DecimalRoundTrip(n / 10);
      assert s[..|s| - 1] == Decimal(n / 10);
    }
  }

  lemma DecimalInjective(a: nat, b: nat)
    requires Decimal(a) == Decimal(b)
    ensures a == b
  {
    DecimalRoundTrip(a);
    DecimalRoundTrip(b);
  }

  lemma IntToStringInjective(a: int, b: int)
    ensures IntToString(a) == IntToString(b) <==> a == b
  {
    if IntToString(a) == IntToString(b) {
      if a < 0 && b < 0 {
        var sa, sb := IntToString(a), IntToString(b);
        assert sa[1..] == Decimal(-a);
        assert sb[1..] == Decimal(-b);
        DecimalInjective(-a, -b);
      } else if a >= 0 && b >= 0 {
        DecimalInjective(a, b);
      }
    }
  }

  /** Two codes share a label exactly when they agree on `code // 100`. */
  lemma SameFamily(a: int, b: int)
    ensures StatusFamily(a) == StatusFamily(b) <==> a / 100 == b / 100
  {
    var sa, sb := IntToString(a / 100), IntToString(b / 100);
    if StatusFamily(a) == StatusFamily(b) {
      assert |sa| == |sb|;
      assert sa == StatusFamily(a)[..|sa|];
      assert sb == StatusFamily(b)[..|sb|];
    }
    IntToStringInjective(a / 100, b / 100);
  }

  /** Every success code is labelled "2xx", and 404 is labelled "4xx". */
  lemma KnownFamilies(code: int)
    ensures 200 <= code <= 299 ==> StatusFamily(code) == "2xx"
    ensures StatusFamily(404) == "4xx"
  {
  }

  /** A three-digit code has a three-character label: its first digit and "xx". */
  lemma ThreeDigitCodes(code: int)
    requires 100 <= code <= 999
    ensures |StatusFamily(code)| == 3
    ensures StatusFamily(code)[0] == DigitChar(code / 100)
  {
  }
}

=== FILE: permission.dfy ===
/** The FastAPI dependencies of the role-record based permission check. */
module Permission {
  import opened Wrappers
  import opened Roles

  /** A role record attached to a user; only its name is consulted. */
  datatype RoleRecord = RoleRecord(name: string)

  /** The authenticated user with the role records it holds. */
  datatype User = User(id: int, roles: seq<RoleRecord>)

  /** `[role.name for role in current_user.roles]`. */
  function RoleNames(u: User): (names: seq<string>)
    ensures |names| == |u.roles|
    ensures forall i :: 0 <= i < |names| ==> names[i] == u.roles[i].name
  {
    seq(|u.roles|, i requires 0 <= i < |u.roles| => u.roles[i].name)
  }

  /** `any(role.value in names for role in allowed)`. */
  function AnyAllowed(allowed: seq<Role>, names: seq<string>): (b: bool)
    ensures b <==> exists i :: 0 <= i < |allowed| && RoleValue(allowed[i]) in names
  {
    if allowed == [] then false
    else RoleValue(allowed[0]) in names || AnyAllowed(allowed[1..], names)
  }

  /** Python's `str()` of a list of strings without quotes inside them: `['a', 'b']`. */
  function ListRepr(items: seq<string>): string {
    "[" + ReprItems(items) + "]"
  }

  function ReprItems(items: seq<string>): string {
    if items == [] then ""
    else if |items| == 1 then "'" + items[0] + "'"
    else "'" + items[0] + "', " + ReprItems(items[1..])
  }

  function RoleValues(allowed: seq<Role>): (values: seq<string>)
    ensures |values| == |allowed|
    ensures forall i :: 0 <= i < |values| ==> values[i] == RoleValue(allowed[i])
  {
    seq(|allowed|, i requires 0 <= i < |allowed| => RoleValue(allowed[i]))
  }

  function DeniedDetail(allowed: seq<Role>): string {
    "Access denied. Required roles: " + ListRepr(RoleValues(allowed)) + "."
  }

  /** `require_roles(allowed)(currentUser)`. */
  function RequireRoles(allowed: seq<Role>, currentUser: User): (r: Result<User, HttpError>)
    ensures r.Success? <==> exists i, j :: 0 <= i < |allowed| && 0 <= j < |currentUser.roles|
                                           && currentUser.roles[j].name == RoleValue(allowed[i])
    ensures r.Success? ==> r.value == currentUser
    ensures r.Failure? ==> r.error == HttpError(403, DeniedDetail(allowed))
  {
    var names := RoleNames(currentUser);
    if !AnyAllowed(allowed, names) then Failure(HttpError(403, DeniedDetail(allowed)))
    else Success(currentUser)
  }

  function RequireAdmin(currentUser: User): (r: Result<User, HttpError>)
    ensures r.Success? <==> RoleRecord("admin") in currentUser.roles
  {
    RequireRoles([Admin], currentUser)
  }

  function RequireModerator(currentUser: User): (r: Result<User, HttpError>)
    ensures r.Success? <==> RoleRecord("moderator") in currentUser.roles || RoleRecord("admin") in currentUser.roles
  {
    RequireRoles([Moderator, Admin], currentUser)
  }

  function RequireAuthenticatedUser(currentUser: User): (r: User)
    ensures r == currentUser
  {
    currentUser
  }

  /** An empty list of allowed roles rejects everyone. */
  lemma EmptyAllowedRejects(u: User)
    ensures RequireRoles([], u) == Failure(HttpError(403, "Access denied. Required roles: []."))
  {
    assert RoleValues([]) == [];
    assert ListRepr([]) == "[]";
    assert DeniedDetail([]) == "Access denied. Required roles: " + "[]" + ".";
    assert !AnyAllowed([], RoleNames(u));
    assert "Access denied. Required roles: " + "[]" + "." == "Access denied. Required roles: [].";
  }

  /** Whoever passes `require_admin` passes `require_moderator`, with the same user returned. */
  lemma AdminPassesModerator(u: User)
    ensures RequireAdmin(u).Success? ==> RequireModerator(u) == RequireAdmin(u)
  {
  }

  /** Allowing more roles never rejects a user that was admitted. */
  lemma RequireRolesMonotone(small: seq<Role>, large: seq<Role>, u: User)
    requires forall r :: r in small ==> r in large
    ensures RequireRoles(small, u).Success? ==> RequireRoles(large, u) == Success(u)
  {
    if RequireRoles(small, u).Success? {
      var i, j :| 0 <= i < |small| && 0 <= j < |u.roles| && u.roles[j].name == RoleValue(small[i]);
      assert small[i] in small;
      var k :| 0 <= k < |large| && large[k] == small[i];
    }
  }

  /** The 403 detail of `require_moderator` names both required roles. */
  lemma ModeratorDeniedDetail(u: User)
    ensures RequireModerator(u).Failure? ==>
              RequireModerator(u).error.detail == "Access denied. Required roles: ['moderator', 'admin']."
  {
    ModeratorDetailText();
  }

  /** The detail text of the moderator gate, spelled out. */
  lemma ModeratorDetailText()
    ensures DeniedDetail([Moderator, Admin]) == "Access denied. Required roles: ['moderator', 'admin']."
  {
    ModeratorRolesRepr();
  }

  /** `str(['moderator', 'admin'])`. */
  lemma ModeratorRolesRepr()
    ensures ListRepr(RoleValues([Moderator, Admin])) == "['moderator', 'admin']"
  {
    ModeratorRoleValues();
    ModeratorRolesItems();
  }

  /** The values of the moderator gate's roles. */
  lemma ModeratorRoleValues()
    ensures RoleValues([Moderator, Admin]) == ["moderator", "admin"]
  {
    var values := RoleValues([Moderator, Admin]);
    assert values[0] == "moderator" && values[1] == "admin";
  }

  /** The items of that list, quoted and separated by `, `. */
  lemma ModeratorRolesItems()
    ensures ReprItems(["moderator", "admin"]) == "'moderator', 'admin'"
  {
    assert ["moderator", "admin"][1..] == ["admin"];
    assert ReprItems(["admin"]) == "'admin'";
  }
}

=== FILE: ranking.dfy ===
/**
 * The four-factor ranking of `RecommendationService._rank_tasks` and the explanation string of
 * `_get_match_reason`.
 */
module Ranking {
  import opened Wrappers
  import opened Sequences
  import opened Sorting
  import opened TaskStore

  /** A recommendation as returned to the caller (`RankedTask`). */
  datatype RankedTask = RankedTask(
    id: int, subject: string, problem: string, difficulty: real, relevance: real, matchReason: string)

  function Abs(x: real): real {
    if x < 0.0 then -x else x
  }

  // ---------------------------------------------------------------------------------------
  // The three factors and their combination

  /** `1 / (1 + |difficulty - optimal|)`: how close the task is to the calibrated difficulty. */
  function DifficultyScore(difficulty: real, optimal: real): (r: real)
    ensures 0.0 < r <= 1.0
    ensures r == 1.0 <==> difficulty == optimal
  {
    1.0 / (1.0 + Abs(difficulty - optimal))
  }

  /** 1.5 for a preferred subject, otherwise 1.0; only the former crosses the 1.2 threshold. */
  function SubjectScore(subject: string, preferred: seq<string>): (r: real)
    ensures r == 1.0 || r == 1.5
    ensures r > 1.2 <==> subject in preferred
  {
    if subject in preferred then 1.5 else 1.0
  }

  function Relevance(difficultyScore: real, subjectScore: real, similarityScore: real): real {
    0.4 * difficultyScore + 0.3 * subjectScore + 0.3 * similarityScore
  }

  // ---------------------------------------------------------------------------------------
  // Similarity to previously solved problems

  predicate IsSolved(a: AttemptRecord) {
    a.status == Solved
  }

  /**
   * `[p for _, st, _, _, _, p in user_history if st == 'solved']`: one problem per solved
   * attempt, in history order, repeats kept.
   */
  function SolvedProblems(h: seq<AttemptRecord>): (r: seq<string>)
    ensures |r| <= |h|
    ensures forall p :: p in r <==> exists i :: 0 <= i < |h| && h[i].status == Solved && h[i].problem == p
    ensures |r| == |Filter(h, IsSolved)|
    ensures forall i :: 0 <= i < |r| ==> r[i] == Filter(h, IsSolved)[i].problem
  {
    if h == [] then []
    else
      assert forall i :: 1 <= i < |h| ==> h[i] == h[1..][i - 1];
      (if h[0].status == Solved then [h[0].problem] else []) + SolvedProblems(h[1..])
  }

  /**
   * Text similarity is used when at least two solved problems exist and fitting the vectorizer
   * on them succeeds (`fitSucceeds` is false when `fit` raises).
   */
  predicate TextEnabled(h: seq<AttemptRecord>, fitSucceeds: bool) {
    |SolvedProblems(h)| >= 2 && fitSucceeds
  }

  /**
   * The similarity oracle: for a problem text, the largest cosine similarity to the fitted
   * solved problems, or `None` when `transform` raises.  Cosine similarities of term-weight
   * vectors lie in [0, 1].
   */
  ghost predicate ValidCosine(cosine: string -> Option<real>) {
    forall p :: cosine(p).Some? ==> 0.0 <= cosine(p).value <= 1.0
  }

  function SimilarityScore(enabled: bool, cosine: string -> Option<real>, problem: string): (r: real)
    requires ValidCosine(cosine)
    ensures 0.0 <= r <= 1.0
    ensures !enabled ==> r == 0.0
    ensures enabled && cosine(problem).None? ==> r == 0.0
    ensures enabled && cosine(problem).Some? ==> r == cosine(problem).value
  {
    if !enabled then 0.0
    else
      match cosine(problem)
      case Some(v) => v
      case None => 0.0
  }

  // ---------------------------------------------------------------------------------------
  // Match reason

  const OptimalDifficultyClause := "оптимальная сложность"
  const PreferredSubjectClause := "предпочтительная тема"
  const SimilarProblemClause := "похожа на решенные вами задачи"
  const NewChallenge := "новый вызов"
  const Conjunction := " и "

  /** `sep.join(parts)`. */
  function Join(parts: seq<string>, sep: string): string {
    if parts == [] then ""
    else if |parts| == 1 then parts[0]
    else parts[0] + sep + Join(parts[1..], sep)
  }

  /** The clauses whose thresholds are crossed, in the fixed order difficulty, subject, similarity. */
  function Clauses(difficultyScore: real, subjectScore: real, similarityScore: real): seq<string> {
    (if difficultyScore > 0.7 then [OptimalDifficultyClause] else [])
    + (if subjectScore > 1.2 then [PreferredSubjectClause] else [])
    + (if similarityScore > 0.5 then [SimilarProblemClause] else [])
  }

  function ReasonFor(difficultyScore: real, subjectScore: real, similarityScore: real): string {
    var clauses := Clauses(difficultyScore, subjectScore, similarityScore);
    if clauses == [] then NewChallenge else Join(clauses, Conjunction)
  }

  /** `_get_match_reason`. */
  method MatchReason(difficultyScore: real, subjectScore: real, similarityScore: real) returns (reason: string)
    ensures reason == ReasonFor(difficultyScore, subjectScore, similarityScore)
  {
    var reasons: seq<string> := [];
    if difficultyScore > 0.7 {
      reasons := reasons + [OptimalDifficultyClause];
    }
    if subjectScore > 1.2 {
      reasons := reasons + [PreferredSubjectClause];
    }
    if similarityScore > 0.5 {
      reasons := reasons + [SimilarProblemClause];
    }
    assert reasons == Clauses(difficultyScore, subjectScore, similarityScore);
    reason := if reasons != [] then Join(reasons, Conjunction) else NewChallenge;
  }

  /** A joined string starts with its first part, so with that part's first character. */
  lemma JoinHead(parts: seq<string>, sep: string)
    requires parts != [] && parts[0] != []
    ensures parts[0] <= Join(parts, sep)
    ensures Join(parts, sep) != [] && Join(parts, sep)[0] == parts[0][0]
  {
    if |parts| > 1 {
      assert Join(parts, sep) == parts[0] + (sep + Join(parts[1..], sep));
    }
  }

  /** The reason is "новый вызов" exactly when no threshold is crossed. */
  lemma ReasonDefaultExactly(difficultyScore: real, subjectScore: real, similarityScore: real)
    ensures ReasonFor(difficultyScore, subjectScore, similarityScore) == NewChallenge
        <==> !(difficultyScore > 0.7) && !(subjectScore > 1.2) && !(similarityScore > 0.5)
  {
    var clauses := Clauses(difficultyScore, subjectScore, similarityScore);
    if clauses != [] {
      JoinHead(clauses, Conjunction);
      assert clauses[0][0] != NewChallenge[0];
    }
  }

  /** Position of a clause in the fixed order. */
  function ClauseRank(clause: string): int {
    if clause == OptimalDifficultyClause then 0
    else if clause == PreferredSubjectClause then 1
    else if clause == SimilarProblemClause then 2
    else 3
  }

  /** Each clause appears exactly when its threshold is crossed, and they appear in the fixed order. */
  lemma ClausesSelected(difficultyScore: real, subjectScore: real, similarityScore: real)
    ensures OptimalDifficultyClause in Clauses(difficultyScore, subjectScore, similarityScore) <==> difficultyScore > 0.7
    ensures PreferredSubjectClause in Clauses(difficultyScore, subjectScore, similarityScore) <==> subjectScore > 1.2
    ensures SimilarProblemClause in Clauses(difficultyScore, subjectScore, similarityScore) <==> similarityScore > 0.5
    ensures var c := Clauses(difficultyScore, subjectScore, similarityScore);
            forall i, j :: 0 <= i < j < |c| ==> ClauseRank(c[i]) < ClauseRank(c[j])
  {
    assert OptimalDifficultyClause[0] != PreferredSubjectClause[0];
    assert OptimalDifficultyClause[0] != SimilarProblemClause[0];
    assert |PreferredSubjectClause| != |SimilarProblemClause|;
  }

  /** The subject clause appears exactly when the task's subject is preferred. */
  lemma SubjectClauseExactlyWhenPreferred(difficultyScore: real, subject: string, preferred: seq<string>, similarityScore: real)
    ensures PreferredSubjectClause in Clauses(difficultyScore, SubjectScore(subject, preferred), similarityScore)
        <==> subject in preferred
  {
    ClausesSelected(difficultyScore, SubjectScore(subject, preferred), similarityScore);
  }

  // ---------------------------------------------------------------------------------------
  // Ranking

  /** The entry `_rank_tasks` builds for one candidate. */
  function Entry(c: CandidateTask, optimal: real, preferred: seq<string>, enabled: bool,
                 cosine: string -> Option<real>): (e: RankedTask)
    requires ValidCosine(cosine)
    ensures e.id == c.id && e.subject == c.subject && e.problem == c.problem
    ensures e.difficulty == c.difficulty as real
    ensures 0.3 < e.relevance <= 1.15
  {
    var difficulty := c.difficulty as real;
    var ds := DifficultyScore(difficulty, optimal);
    var ss := SubjectScore(c.subject, preferred);
    var sim := SimilarityScore(enabled, cosine, c.problem);
    RankedTask(c.id, c.subject, c.problem, difficulty, Relevance(ds, ss, sim), ReasonFor(ds, ss, sim))
  }

  function Entries(candidates: seq<CandidateTask>, optimal: real, preferred: seq<string>, enabled: bool,
                   cosine: string -> Option<real>): (r: seq<RankedTask>)
    requires ValidCosine(cosine)
    ensures |r| == |candidates|
    ensures forall i :: 0 <= i < |r| ==> r[i] == Entry(candidates[i], optimal, preferred, enabled, cosine)
  {
    seq(|candidates|, i requires 0 <= i < |candidates| => Entry(candidates[i], optimal, preferred, enabled, cosine))
  }

  /** `ranked.sort(key=lambda x: x.relevance_score, reverse=True)`. */
  predicate HigherRelevance(a: RankedTask, b: RankedTask) {
    a.relevance > b.relevance
  }

  function RelevanceOf(e: RankedTask): real {
    e.relevance
  }

  /** What `_rank_tasks` returns. */
  function Ranked(candidates: seq<CandidateTask>, history: seq<AttemptRecord>, optimal: real,
                  preferred: seq<string>, fitSucceeds: bool, cosine: string -> Option<real>): seq<RankedTask>
    requires ValidCosine(cosine)
  {
    SortBy(Entries(candidates, optimal, preferred, TextEnabled(history, fitSucceeds), cosine), HigherRelevance)
  }

  // ---------------------------------------------------------------------------------------
  // Properties of the ranking

  /** A task at exactly the calibrated difficulty gets the maximal difficulty score 1. */
  lemma DifficultyScoreMaximal(difficulty: real, optimal: real)
    ensures DifficultyScore(difficulty, optimal) <= DifficultyScore(optimal, optimal) == 1.0
  {
  }

  /** Without text similarity every similarity score is 0. */
  lemma SimilarityDisabled(h: seq<AttemptRecord>, fitSucceeds: bool, cosine: string -> Option<real>, c: CandidateTask)
    requires ValidCosine(cosine)
    requires |SolvedProblems(h)| < 2 || !fitSucceeds
    ensures SimilarityScore(TextEnabled(h, fitSucceeds), cosine, c.problem) == 0.0
  {
  }

  /** One entry per candidate, ordered by non-increasing relevance, ties in candidate order. */
  lemma RankedProperties(candidates: seq<CandidateTask>, history: seq<AttemptRecord>, optimal: real,
                         preferred: seq<string>, fitSucceeds: bool, cosine: string -> Option<real>, k: real)
    requires ValidCosine(cosine)
    ensures var entries := Entries(candidates, optimal, preferred, TextEnabled(history, fitSucceeds), cosine);
            var r := Ranked(candidates, history, optimal, preferred, fitSucceeds, cosine);
            && |r| == |candidates|
            && multiset(r) == multiset(entries)
            && (forall i, j :: 0 <= i < j < |r| ==> r[j].relevance <= r[i].relevance)
            && WithKey(r, RelevanceOf, k) == WithKey(entries, RelevanceOf, k)
  {
    var entries := Entries(candidates, optimal, preferred, TextEnabled(history, fitSucceeds), cosine);
    var r := SortBy(entries, HigherRelevance);
    SortByPermutation(entries, HigherRelevance);
    KeyOrderIsStrict(HigherRelevance, RelevanceOf);
    SortByOrdered(entries, HigherRelevance);
    SortByStable(entries, HigherRelevance, RelevanceOf, k);
    forall i, j | 0 <= i < j < |r| ensures r[j].relevance <= r[i].relevance {
      assert !HigherRelevance(r[j], r[i]);
    }
  }

  /** Every ranked entry is the entry of one of the candidates, so it keeps that task's fields. */
  lemma RankedFromCandidates(candidates: seq<CandidateTask>, history: seq<AttemptRecord>, optimal: real,
                             preferred: seq<string>, fitSucceeds: bool, cosine: string -> Option<real>, i: nat)
    requires ValidCosine(cosine)
    requires i < |Ranked(candidates, history, optimal, preferred, fitSucceeds, cosine)|
    ensures exists j :: 0 <= j < |candidates| &&
              Ranked(candidates, history, optimal, preferred, fitSucceeds, cosine)[i]
              == Entry(candidates[j], optimal, preferred, TextEnabled(history, fitSucceeds), cosine)
  {
    var entries := Entries(candidates, optimal, preferred, TextEnabled(history, fitSucceeds), cosine);
    SortByPermutation(entries, HigherRelevance);
    assert SortBy(entries, HigherRelevance)[i] in multiset(entries);
  }

  /**
   * Of two candidates with the same difficulty and the same subject preference, the one whose
   * problem is more similar to solved problems ranks strictly higher.
   */
  lemma SimilarityBreaksTie(c1: CandidateTask, c2: CandidateTask, optimal: real, preferred: seq<string>,
                            cosine: string -> Option<real>, s1: real, s2: real)
    requires ValidCosine(cosine)
    requires c1.difficulty == c2.difficulty
    requires c1.subject in preferred <==> c2.subject in preferred
    requires cosine(c1.problem) == Some(s1) && cosine(c2.problem) == Some(s2) && s1 > s2
    ensures HigherRelevance(Entry(c1, optimal, preferred, true, cosine), Entry(c2, optimal, preferred, true, cosine))
  {
  }

  /** In the ranking, an entry of strictly higher relevance comes first. */
  lemma HigherRelevanceFirst(candidates: seq<CandidateTask>, history: seq<AttemptRecord>, optimal: real,
                             preferred: seq<string>, fitSucceeds: bool, cosine: string -> Option<real>, i: nat, j: nat)
    requires ValidCosine(cosine)
    requires var r := Ranked(candidates, history, optimal, preferred, fitSucceeds, cosine);
             i < |r| && j < |r| && r[i].relevance > r[j].relevance
    ensures i < j
  {
    var entries := Entries(candidates, optimal, preferred, TextEnabled(history, fitSucceeds), cosine);
    KeyOrderIsStrict(HigherRelevance, RelevanceOf);
    SortByOrdered(entries, HigherRelevance);
    OutrankerComesFirst(SortBy(entries, HigherRelevance), HigherRelevance, i, j);
  }
}

=== FILE: recommendation.dfy ===
/**
 * `RecommendationService`: the orchestration of `get_user_recommendations` and the ranking loop
 * of `_rank_tasks`, which refits the service's TF-IDF vectorizer.
 */
module Recommendation {
  import opened Wrappers
  import opened Sequences
  import opened Sorting
  import opened TaskStore
  import opened HistoryAnalysis
  import opened Ranking
  import opened ColdStart

  /**
   * The similarity oracle of the fitted vectorizer: `similarity(corpus, problem)` is the largest
   * cosine similarity of `problem` to the documents the vectorizer was fitted on, or `None` when
   * `transform` raises.
   */
  ghost predicate ValidSimilarity(similarity: (seq<string>, string) -> Option<real>) {
    forall corpus, p :: similarity(corpus, p).Some? ==> 0.0 <= similarity(corpus, p).value <= 1.0
  }

  /** The oracle after fitting on `corpus`. */
  function FittedOn(similarity: (seq<string>, string) -> Option<real>, corpus: seq<string>): (cosine: string -> Option<real>)
    requires ValidSimilarity(similarity)
    ensures ValidCosine(cosine)
    ensures forall p :: cosine(p) == similarity(corpus, p)
  {
    p => similarity(corpus, p)
  }

  /** The candidate pool: unattempted tasks in the preferred subjects, or all unattempted tasks when that is empty. */
  function SelectCandidates(db: Database, userId: int, preferred: seq<string>): (r: seq<CandidateTask>)
    ensures forall t :: t in r ==> t in db.tasks && t.id !in AttemptedIds(db, userId)
    ensures CandidateTasks(db, userId, preferred) != [] ==> forall t :: t in r ==> preferred != [] ==> t.subject in preferred
    ensures r == [] <==> forall t :: t in db.tasks ==> t.id in AttemptedIds(db, userId)
    ensures CandidateTasks(db, userId, preferred) == [] ==> r == UnsolvedTasks(db, userId)
    ensures forall t :: t in r <==>
              t in db.tasks && t.id !in AttemptedIds(db, userId)
              && (CandidateTasks(db, userId, preferred) != [] && preferred != [] ==> t.subject in preferred)
  {
    var candidates := CandidateTasks(db, userId, preferred);
    var r := if candidates == [] then UnsolvedTasks(db, userId) else candidates;
    assert r != [] ==> r[0] in r;
    r
  }

  /** What `get_user_recommendations` returns. */
  function Recommend(db: Database, userId: int, n: nat, fitSucceeds: bool,
                     similarity: (seq<string>, string) -> Option<real>): (r: seq<RankedTask>)
    requires ValidSimilarity(similarity)
    ensures |r| <= n
    ensures RecentHistory(db, userId) == [] ==>
              forall e :: e in r ==> e.relevance == PopularRelevance && e.matchReason == PopularReason
    ensures RecentHistory(db, userId) != [] ==> forall e :: e in r ==> 0.3 < e.relevance <= 1.15
  {
    var h := RecentHistory(db, userId);
    if h == [] then Defaults(db, n)
    else
      var preferred := TopSubjects(h);
      var cosine := FittedOn(similarity, SolvedProblems(h));
      RankedTake(SelectCandidates(db, userId, preferred), h, CalibratedDifficulty(h), preferred, fitSucceeds, cosine, n);
      Take(Ranked(SelectCandidates(db, userId, preferred), h, CalibratedDifficulty(h), preferred, fitSucceeds, cosine), n)
  }

  /** The body of `_rank_tasks`' loop: the scores, relevance and reason of one candidate. */
  method ScoreCandidate(t: CandidateTask, optimal: real, preferred: seq<string>, useText: bool,
                        solvedProblems: seq<string>, similarity: (seq<string>, string) -> Option<real>)
    returns (entry: RankedTask)
    requires ValidSimilarity(similarity)
    ensures entry == Entry(t, optimal, preferred, useText, FittedOn(similarity, solvedProblems))
    ensures 0.3 < entry.relevance <= 1.15
  {
    var difficulty := t.difficulty as real;
    var difficultyScore := 1.0 / (1.0 + Abs(difficulty - optimal));
    var subjectScore := if t.subject in preferred then 1.5 else 1.0;
    var similarityScore := 0.0;
    if useText {
      match similarity(solvedProblems, t.problem)
      case Some(v) => similarityScore := v;
      case None => similarityScore := 0.0;
    }
    assert similarityScore == SimilarityScore(useText, FittedOn(similarity, solvedProblems), t.problem);
    var total := 0.4 * difficultyScore + 0.3 * subjectScore + 0.3 * similarityScore;
    var reason := MatchReason(difficultyScore, subjectScore, similarityScore);
    entry := RankedTask(t.id, t.subject, t.problem, difficulty, total, reason);
  }

  /**
   * The service object.  Its only state is the vectorizer, represented by the problems it was
   * last fitted on (`None` before the first fit).
   */
  class Recommender {
    var fittedOn: Option<seq<string>>

    constructor()
      ensures fittedOn == None
    {
      fittedOn := None;
    }

    /** `_rank_tasks`: refits the vectorizer on the solved problems when there are at least two. */
    method RankTasks(candidates: seq<CandidateTask>, history: seq<AttemptRecord>, optimal: real,
                     preferred: seq<string>, fitSucceeds: bool, similarity: (seq<string>, string) -> Option<real>)
      returns (ranked: seq<RankedTask>)
      requires ValidSimilarity(similarity)
      modifies this
      ensures fittedOn == if TextEnabled(history, fitSucceeds) then Some(SolvedProblems(history)) else old(fittedOn)
      ensures ranked == Ranked(candidates, history, optimal, preferred, fitSucceeds,
                               FittedOn(similarity, SolvedProblems(history)))
    {
      var solvedProblems := SolvedProblems(history);
      var useText := |solvedProblems| >= 2;
      if useText {
        if fitSucceeds {
          fittedOn := Some(solvedProblems);
        } else {
          useText := false;
        }
      }
      ghost var cosine := FittedOn(similarity, solvedProblems);
      ranked := [];
      for i := 0 to |candidates|
        invariant fittedOn == if useText then Some(solvedProblems) else old(fittedOn)
        invariant |ranked| == i
        invariant forall k :: 0 <= k < i ==> ranked[k] == Entry(candidates[k], optimal, preferred, useText, cosine)
      {
        var entry := ScoreCandidate(candidates[i], optimal, preferred, useText, solvedProblems, similarity);
        ranked := ranked + [entry];
      }
      assert useText == TextEnabled(history, fitSucceeds);
      assert ranked == Entries(candidates, optimal, preferred, useText, cosine);
      ranked := SortBy(ranked, HigherRelevance);
    }

    /** `get_user_recommendations`. */
    method GetUserRecommendations(db: Database, userId: int, n: nat, fitSucceeds: bool,
                                  similarity: (seq<string>, string) -> Option<real>)
      returns (recommendations: seq<RankedTask>)
      requires ValidSimilarity(similarity)
      modifies this
      ensures recommendations == Recommend(db, userId, n, fitSucceeds, similarity)
      ensures var h := RecentHistory(db, userId);
              fittedOn == if h != [] && TextEnabled(h, fitSucceeds) then Some(SolvedProblems(h)) else old(fittedOn)
    {
      var userHistory := RecentHistory(db, userId);
      if userHistory == [] {
        recommendations := GetDefaultRecommendations(db, n);
        return;
      }
      var preferredSubjects := AnalyzeSubjects(userHistory);
      var optimalDifficulty := AnalyzeDifficulty(userHistory);
      var candidateTasks := CandidateTasks(db, userId, preferredSubjects);
      if candidateTasks == [] {
        candidateTasks := UnsolvedTasks(db, userId);
      }
      var ranked := RankTasks(candidateTasks, userHistory, optimalDifficulty, preferredSubjects, fitSucceeds, similarity);
      recommendations := Take(ranked, n);
    }
  }

  // ---------------------------------------------------------------------------------------
  // Properties of the recommendations

  /** Every subject-filtered candidate is also an unsolved task. */
  lemma CandidatesAreUnsolved(db: Database, userId: int, preferred: seq<string>)
    ensures forall t :: t in CandidateTasks(db, userId, preferred) ==> t in UnsolvedTasks(db, userId)
  {
    forall t | t in CandidateTasks(db, userId, preferred) ensures t in UnsolvedTasks(db, userId) {
      var i :| 0 <= i < |db.tasks| && db.tasks[i] == t;
    }
  }

  /**
   * A user without any history row (joined to a task) gets the cold-start recommendations; every
   * such item has relevance 0.5 and the popularity reason.
   */
  lemma ColdStartExactly(db: Database, userId: int, n: nat, fitSucceeds: bool,
                         similarity: (seq<string>, string) -> Option<real>)
    requires ValidSimilarity(similarity)
    ensures UserRows(db, userId) == [] ==> Recommend(db, userId, n, fitSucceeds, similarity) == Defaults(db, n)
    ensures UserRows(db, userId) == [] ==>
              forall e :: e in Recommend(db, userId, n, fitSucceeds, similarity) ==>
                e.relevance == 0.5 && e.matchReason == PopularReason
  {
    RecentHistoryShape(db, userId);
    DefaultsShape(db, n);
  }

  /** With history, nothing the user has ever attempted is recommended, however old the attempt. */
  lemma NeverRecommendsAttempted(db: Database, userId: int, n: nat, fitSucceeds: bool,
                                 similarity: (seq<string>, string) -> Option<real>)
    requires ValidSimilarity(similarity)
    requires UserRows(db, userId) != []
    ensures forall e :: e in Recommend(db, userId, n, fitSucceeds, similarity) ==> e.id !in AttemptedIds(db, userId)
  {
    RecentHistoryShape(db, userId);
    var h := RecentHistory(db, userId);
    var preferred := TopSubjects(h);
    var cosine := FittedOn(similarity, SolvedProblems(h));
    var pool := SelectCandidates(db, userId, preferred);
    var ranked := Ranked(pool, h, CalibratedDifficulty(h), preferred, fitSucceeds, cosine);
    forall e | e in Recommend(db, userId, n, fitSucceeds, similarity) ensures e.id !in AttemptedIds(db, userId) {
      var i :| 0 <= i < |Take(ranked, n)| && Take(ranked, n)[i] == e;
      RankedFromCandidates(pool, h, CalibratedDifficulty(h), preferred, fitSucceeds, cosine, i);
      var j :| 0 <= j < |pool| && ranked[i] == Entry(pool[j], CalibratedDifficulty(h), preferred, TextEnabled(h, fitSucceeds), cosine);
      assert pool[j] in pool;
    }
  }

  /** With history, the result is the first `n` entries of the ranked candidate pool. */
  lemma HistoryPath(db: Database, userId: int, n: nat, fitSucceeds: bool,
                    similarity: (seq<string>, string) -> Option<real>)
    requires ValidSimilarity(similarity)
    requires UserRows(db, userId) != []
    ensures var h := RecentHistory(db, userId);
            var preferred := TopSubjects(h);
            Recommend(db, userId, n, fitSucceeds, similarity)
            == Take(Ranked(SelectCandidates(db, userId, preferred), h, CalibratedDifficulty(h), preferred, fitSucceeds,
                           FittedOn(similarity, SolvedProblems(h))), n)
  {
    RecentHistoryShape(db, userId);
  }

  /**
   * With history, the result is the first `min(n, |pool|)` ranked entries: at most `n`, by
   * non-increasing relevance, each with relevance in (0.3, 1.15].
   */
  lemma RankedRecommendations(db: Database, userId: int, n: nat, fitSucceeds: bool,
                              similarity: (seq<string>, string) -> Option<real>)
    requires ValidSimilarity(similarity)
    requires UserRows(db, userId) != []
    ensures var h := RecentHistory(db, userId);
            var pool := SelectCandidates(db, userId, TopSubjects(h));
            var r := Recommend(db, userId, n, fitSucceeds, similarity);
            && |r| == (if n <= |pool| then n else |pool|)
            && (forall i, j :: 0 <= i < j < |r| ==> r[j].relevance <= r[i].relevance)
            && (forall e :: e in r ==> 0.3 < e.relevance <= 1.15)
  {
    HistoryPath(db, userId, n, fitSucceeds, similarity);
    var h := RecentHistory(db, userId);
    var preferred := TopSubjects(h);
    var cosine := FittedOn(similarity, SolvedProblems(h));
    var pool := SelectCandidates(db, userId, preferred);
    RankedTake(pool, h, CalibratedDifficulty(h), preferred, fitSucceeds, cosine, n);
  }

  /** The first `n` ranked entries: how many, their order and their relevance range. */
  lemma RankedTake(pool: seq<CandidateTask>, h: seq<AttemptRecord>, optimal: real, preferred: seq<string>,
                   fitSucceeds: bool, cosine: string -> Option<real>, n: nat)
    requires ValidCosine(cosine)
    ensures var r := Take(Ranked(pool, h, optimal, preferred, fitSucceeds, cosine), n);
            && |r| == (if n <= |pool| then n else |pool|)
            && (forall i, j :: 0 <= i < j < |r| ==> r[j].relevance <= r[i].relevance)
            && (forall e :: e in r ==> 0.3 < e.relevance <= 1.15)
  {
    RankedProperties(pool, h, optimal, preferred, fitSucceeds, cosine, 0.0);
    var ranked := Ranked(pool, h, optimal, preferred, fitSucceeds, cosine);
    forall e | e in Take(ranked, n) ensures 0.3 < e.relevance <= 1.15 {
      var i :| 0 <= i < |Take(ranked, n)| && Take(ranked, n)[i] == e;
      RankedFromCandidates(pool, h, optimal, preferred, fitSucceeds, cosine, i);
    }
  }

  /** Whatever the path, at most `n` recommendations come back. */
  lemma AtMostN(db: Database, userId: int, n: nat, fitSucceeds: bool,
                similarity: (seq<string>, string) -> Option<real>)
    requires ValidSimilarity(similarity)
    ensures |Recommend(db, userId, n, fitSucceeds, similarity)| <= n
  {
    DefaultsShape(db, n);
  }
}

=== FILE: role_decorators.dfy ===
/**
 * The route decorators `require_role` and `require_admin_or_self`.  A decorated handler is
 * `call`, applied to its arguments `args`; the `current_user` and `user_id` keyword arguments
 * are passed separately, `None` when absent.
 */
module RoleDecorators {
  import opened Wrappers
  import opened Roles

  /** The authenticated user object: its id and its single role. */
  datatype CurrentUser = CurrentUser(id: int, role: Role)

  const Unauthorized := HttpError(401, "Unauthorized")
  const AccessForbidden := HttpError(403, "Access forbidden")
  const AccessDenied := HttpError(403, "Access denied")

  /** `require_role(*allowed)(call)(*args, current_user=currentUser)`. */
  function RequireRole<A, R>(allowed: seq<Role>, call: A -> R, args: A, currentUser: Option<CurrentUser>)
    : (r: Result<R, HttpError>)
    ensures currentUser.None? ==> r == Failure(Unauthorized)
    ensures currentUser.Some? && currentUser.value.role !in allowed ==> r == Failure(AccessForbidden)
    ensures r.Success? <==> currentUser.Some? && currentUser.value.role in allowed
    ensures r.Success? ==> r.value == call(args)
  {
    match currentUser
    case None => Failure(Unauthorized)
    case Some(user) =>
      if user.role !in allowed then Failure(AccessForbidden)
      else Success(call(args))
  }

  const AdminRoles: seq<Role> := [Admin]
  const ModeratorRoles: seq<Role> := [Moderator, Admin]
  const TeacherRoles: seq<Role> := [Teacher, Moderator, Admin]

  function RequireAdmin<A, R>(call: A -> R, args: A, currentUser: Option<CurrentUser>): (r: Result<R, HttpError>)
    ensures r.Success? <==> currentUser.Some? && currentUser.value.role == Admin
  {
    RequireRole(AdminRoles, call, args, currentUser)
  }

  function RequireModerator<A, R>(call: A -> R, args: A, currentUser: Option<CurrentUser>): (r: Result<R, HttpError>)
    ensures r.Success? <==> currentUser.Some? && currentUser.value.role in {Moderator, Admin}
  {
    RequireRole(ModeratorRoles, call, args, currentUser)
  }

  function RequireTeacher<A, R>(call: A -> R, args: A, currentUser: Option<CurrentUser>): (r: Result<R, HttpError>)
    ensures r.Success? <==> currentUser.Some? && currentUser.value.role in {Teacher, Moderator, Admin}
  {
    RequireRole(TeacherRoles, call, args, currentUser)
  }

  /** A gate that admits a user also admits them when more roles are allowed. */
  lemma RequireRoleMonotone<A, R>(small: seq<Role>, large: seq<Role>, call: A -> R, args: A, currentUser: Option<CurrentUser>)
    requires forall r :: r in small ==> r in large
    ensures RequireRole(small, call, args, currentUser).Success? ==> RequireRole(large, call, args, currentUser)
                                                                      == RequireRole(small, call, args, currentUser)
  {
  }

  /** The teacher gate refuses exactly the students among present users. */
  lemma TeacherGateRefusesStudents<A, R>(call: A -> R, args: A, user: CurrentUser)
    ensures RequireTeacher(call, args, Some(user)).Success? <==> user.role != Student
  {
    match user.role
    case Student =>
    case Teacher =>
    case Moderator =>
    case Admin =>
  }

  /** The allowed sets are nested, so whoever passes a stricter gate passes the looser ones; an admin passes all. */
  lemma GatesNested<A, R>(call: A -> R, args: A, currentUser: Option<CurrentUser>)
    ensures RequireAdmin(call, args, currentUser).Success? ==> RequireModerator(call, args, currentUser).Success?
    ensures RequireModerator(call, args, currentUser).Success? ==> RequireTeacher(call, args, currentUser).Success?
    ensures currentUser.Some? && currentUser.value.role == Admin ==>
              && RequireAdmin(call, args, currentUser) == Success(call(args))
              && RequireModerator(call, args, currentUser) == Success(call(args))
              && RequireTeacher(call, args, currentUser) == Success(call(args))
  {
    RequireRoleMonotone(AdminRoles, ModeratorRoles, call, args, currentUser);
    RequireRoleMonotone(ModeratorRoles, TeacherRoles, call, args, currentUser);
  }

  /** A missing user is refused with 401 by every gate, whatever roles it allows. */
  lemma MissingUserUnauthorized<A, R>(allowed: seq<Role>, call: A -> R, args: A)
    ensures RequireRole(allowed, call, args, None) == Failure(Unauthorized)
    ensures RequireRole(allowed, call, args, None).error.status == 401
  {
  }

  /** `require_admin_or_self()(call)(*args, current_user=currentUser, user_id=userId)`. */
  function RequireAdminOrSelf<A, R>(call: A -> R, args: A, currentUser: Option<CurrentUser>, userId: Option<int>)
    : (r: Result<R, HttpError>)
    ensures currentUser.None? ==> r == Failure(Unauthorized)
    ensures r.Success? <==> currentUser.Some? && (currentUser.value.role == Admin || userId == Some(currentUser.value.id))
    ensures r.Success? ==> r.value == call(args)
    ensures currentUser.Some? && r.Failure? ==> r.error == AccessDenied
  {
    match currentUser
    case None => Failure(Unauthorized)
    case Some(user) =>
      if user.role == Admin || userId == Some(user.id) then Success(call(args))
      else Failure(AccessDenied)
  }

  /** A request without `user_id` is admitted only for an admin. */
  lemma NoTargetOnlyAdmin<A, R>(call: A -> R, args: A, user: CurrentUser)
    ensures RequireAdminOrSelf(call, args, Some(user), None).Success? <==> user.role == Admin
  {
  }
}

=== FILE: roles.dfy ===
/** User roles and the HTTP errors the access gates raise. */
module Roles {
  /** `UserRoleEnum`: the roles a user can hold. */
  datatype Role = Student | Teacher | Moderator | Admin

  /** The string value of a role, as stored in role records. */
  function RoleValue(r: Role): (v: string)
    ensures |v| > 0
  {
    match r
    case Student => "student"
    case Teacher => "teacher"
    case Moderator => "moderator"
    case Admin => "admin"
  }

  /** Distinct roles have distinct values, so comparing values compares roles. */
  lemma RoleValueInjective(a: Role, b: Role)
    ensures RoleValue(a) == RoleValue(b) <==> a == b
  {
    if a != b {
      assert RoleValue(a)[0] != RoleValue(b)[0] || |RoleValue(a)| != |RoleValue(b)|;
    }
  }

  /** `HTTPException(status_code, detail)`. */
  datatype HttpError = HttpError(status: int, detail: string)
}

=== FILE: sequences.dfy ===
/** Sequence helpers: Python slicing `s[:n]` and list filtering. */
module Sequences {

  /** Python's `s[:n]` for a non-negative `n`: the first `n` elements, or all of them. */
  function Take<T>(s: seq<T>, n: nat): (r: seq<T>)
    ensures |r| == if n <= |s| then n else |s|
    ensures forall i :: 0 <= i < |r| ==> r[i] == s[i]
  {
    if n <= |s| then s[..n] else s
  }

  /** Taking `n` elements of the first `m >= n` is taking `n` elements. */
  lemma TakeTake<T>(s: seq<T>, m: nat, n: nat)
    requires n <= m
    ensures Take(Take(s, m), n) == Take(s, n)
  {
  }

  /** The elements of `s` that satisfy `p`, in their original order (a list comprehension with `if`). */
  function Filter<T>(s: seq<T>, p: T -> bool): (r: seq<T>)
    ensures |r| <= |s|
    ensures forall i :: 0 <= i < |r| ==> p(r[i])
    ensures forall i :: 0 <= i < |s| && p(s[i]) ==> s[i] in r
    ensures forall x :: x in r ==> x in s
  {
    if s == [] then []
    else if p(s[0]) then [s[0]] + Filter(s[1..], p)
    else Filter(s[1..], p)
  }

  /** Filtering distributes over concatenation. */
  lemma {:induction false} FilterAppend<T>(a: seq<T>, b: seq<T>, p: T -> bool)
    ensures Filter(a + b, p) == Filter(a, p) + Filter(b, p)
  {
    if a != [] {
      assert (a + b)[0] == a[0] && (a + b)[1..] == a[1..] + b;
      FilterAppend(a[1..], b, p);
    } else {
      assert a + b == b;
    }
  }

  /** A filter keeps nothing exactly when no element qualifies. */
  lemma {:induction false} FilterEmpty<T>(s: seq<T>, p: T -> bool)
    ensures Filter(s, p) == [] <==> forall i :: 0 <= i < |s| ==> !p(s[i])
  {
    if s != [] {
      FilterEmpty(s[1..], p);
      if !p(s[0]) {
        assert forall i :: 1 <= i < |s| ==> s[1..][i - 1] == s[i];
      }
    }
  }

  /** No element occurs twice. */
  predicate Distinct<T(==)>(s: seq<T>) {
    forall i, j :: 0 <= i < j < |s| ==> s[i] != s[j]
  }

  lemma {:induction false} DistinctAtMostOnce<T>(s: seq<T>, x: T)
    requires Distinct(s)
    ensures multiset(s)[x] <= 1
  {
    if s != [] {
      assert s == [s[0]] + s[1..];
      assert Distinct(s[1..]);
      DistinctAtMostOnce(s[1..], x);
      if s[0] == x {
        assert x !in s[1..];
      }
    }
  }

  lemma CountedTwice<T>(s: seq<T>, i: nat, j: nat)
    requires i < j < |s| && s[i] == s[j]
    ensures multiset(s)[s[i]] >= 2
  {
    assert s == s[..i] + [s[i]] + s[i + 1..j] + [s[j]] + s[j + 1..];
  }

  /** A permutation of a sequence without repetitions has none either. */
  lemma DistinctPermutation<T>(a: seq<T>, b: seq<T>)
    requires multiset(a) == multiset(b)
    requires Distinct(b)
    ensures Distinct(a)
  {
    forall i, j | 0 <= i < j < |a| ensures a[i] != a[j] {
      if a[i] == a[j] {
        CountedTwice(a, i, j);
        DistinctAtMostOnce(b, a[i]);
      }
    }
  }
}

=== FILE: sorting.dfy ===
/**
 * Stable sorting, as the source gets it from the Python library (`sorted(..., reverse=True)`,
 * `list.sort(key=..., reverse=True)`) and from SQL `ORDER BY`.  The order is given by a
 * relation `before(x, y)`: "x must come strictly ahead of y".  `SortBy` inserts the elements
 * one at a time, in input order, each after every element it does not strictly outrank, so
 * elements that tie keep their input order.
 */
module Sorting {

  /** `before` is irreflexive and transitive. */
  ghost predicate StrictOrder<T(!new)>(before: (T, T) -> bool) {
    && (forall x :: !before(x, x))
    && (forall x, y, z :: before(x, y) && before(y, z) ==> before(x, z))
  }

  /** `before` ranks by a numeric key, larger first (the `key=..., reverse=True` of Python). */
  ghost predicate RanksByKey<T(!new)>(before: (T, T) -> bool, key: T -> real) {
    forall x, y :: before(x, y) <==> key(y) < key(x)
  }

  /** No element comes strictly ahead of an element that precedes it. */
  ghost predicate Ordered<T>(s: seq<T>, before: (T, T) -> bool) {
    forall i, j :: 0 <= i < j < |s| ==> !before(s[j], s[i])
  }

  /** Places `x` in front of the first element it strictly outranks. */
  function Insert<T>(x: T, s: seq<T>, before: (T, T) -> bool): (r: seq<T>)
    ensures |r| == |s| + 1
  {
    if s == [] then [x]
    else if before(x, s[0]) then [x] + s
    else [s[0]] + Insert(x, s[1..], before)
  }

  /** Stable insertion sort of `s`. */
  function SortBy<T>(s: seq<T>, before: (T, T) -> bool): (r: seq<T>)
    ensures |r| == |s|
  {
    if s == [] then [] else Insert(s[|s| - 1], SortBy(s[..|s| - 1], before), before)
  }

  /** The elements of `s` whose key is `k`, in their order in `s`. */
  function WithKey<T>(s: seq<T>, key: T -> real, k: real): (r: seq<T>)
    ensures |r| <= |s|
  {
    if s == [] then []
    else (if key(s[0]) == k then [s[0]] else []) + WithKey(s[1..], key, k)
  }

  lemma {:induction false} InsertMultiset<T>(x: T, s: seq<T>, before: (T, T) -> bool)
    ensures multiset(Insert(x, s, before)) == multiset(s) + multiset{x}
  {
    if s != [] && !before(x, s[0]) {
      InsertMultiset(x, s[1..], before);
      assert s == [s[0]] + s[1..];
    }
  }

  /** Sorting only rearranges: the result is a permutation of the input. */
  lemma {:induction false} SortByPermutation<T>(s: seq<T>, before: (T, T) -> bool)
    ensures multiset(SortBy(s, before)) == multiset(s)
  {
    if s != [] {
      var init := s[..|s| - 1];
      SortByPermutation(init, before);
      InsertMultiset(s[|s| - 1], SortBy(init, before), before);
      assert s == init + [s[|s| - 1]];
    }
  }

  /** Every element of `Insert(x, s)` is `x` or an element of `s`. */
  lemma {:induction false} InsertElements<T>(x: T, s: seq<T>, before: (T, T) -> bool, i: nat)
    requires i < |s| + 1
    ensures Insert(x, s, before)[i] == x || Insert(x, s, before)[i] in s
  {
    InsertMultiset(x, s, before);
    assert Insert(x, s, before)[i] in multiset(Insert(x, s, before));
  }

  lemma {:induction false} InsertOrdered<T(!new)>(x: T, s: seq<T>, before: (T, T) -> bool)
    requires StrictOrder(before)
    requires Ordered(s, before)
    ensures Ordered(Insert(x, s, before), before)
  {
    if s == [] {
    } else if before(x, s[0]) {
      assert Ordered([x] + s, before);
    } else {
      var t := Insert(x, s[1..], before);
      InsertOrdered(x, s[1..], before);
      var r := [s[0]] + t;
      forall i, j | 0 <= i < j < |r|
        ensures !before(r[j], r[i])
      {
        if i == 0 {
          InsertElements(x, s[1..], before, j - 1);
        }
      }
    }
  }

  /** Sorting with a strict order yields an ordered sequence. */
  lemma {:induction false} SortByOrdered<T(!new)>(s: seq<T>, before: (T, T) -> bool)
    requires StrictOrder(before)
    ensures Ordered(SortBy(s, before), before)
  {
    if s != [] {
      SortByOrdered(s[..|s| - 1], before);
      InsertOrdered(s[|s| - 1], SortBy(s[..|s| - 1], before), before);
    }
  }

  /** An order derived from a key is a strict order. */
  lemma KeyOrderIsStrict<T(!new)>(before: (T, T) -> bool, key: T -> real)
    requires RanksByKey(before, key)
    ensures StrictOrder(before)
  {
  }

  lemma {:induction false} WithKeyAppend<T>(a: seq<T>, b: seq<T>, key: T -> real, k: real)
    ensures WithKey(a + b, key, k) == WithKey(a, key, k) + WithKey(b, key, k)
  {
    if a == [] {
      assert a + b == b;
    } else {
      var head := if key(a[0]) == k then [a[0]] else [];
      assert (a + b)[0] == a[0] && (a + b)[1..] == a[1..] + b;
      assert WithKey(a + b, key, k) == head + WithKey(a[1..] + b, key, k);
      WithKeyAppend(a[1..], b, key, k);
      assert WithKey(a, key, k) == head + WithKey(a[1..], key, k);
    }
  }

  /** When every key in `s` is below `k`, nothing in `s` has key `k`. */
  lemma {:induction false} WithKeyNone<T>(s: seq<T>, key: T -> real, k: real)
    requires forall i :: 0 <= i < |s| ==> key(s[i]) < k
    ensures WithKey(s, key, k) == []
  {
    if s != [] {
      WithKeyNone(s[1..], key, k);
    }
  }

  /** In an ordered sequence every key is at most the key of the first element. */
  lemma HeadHasLargestKey<T(!new)>(s: seq<T>, before: (T, T) -> bool, key: T -> real, i: nat)
    requires RanksByKey(before, key)
    requires Ordered(s, before)
    requires i < |s|
    ensures key(s[i]) <= key(s[0])
  {
    if i > 0 {
      assert !before(s[i], s[0]);
    }
  }

  lemma {:induction false} InsertStable<T(!new)>(x: T, s: seq<T>, before: (T, T) -> bool, key: T -> real, k: real)
    requires RanksByKey(before, key)
    requires Ordered(s, before)
    ensures WithKey(Insert(x, s, before), key, k)
         == WithKey(s, key, k) + (if key(x) == k then [x] else [])
  {
    var tail := if key(x) == k then [x] else [];
    if s == [] {
      assert WithKey([x], key, k) == tail + WithKey([], key, k);
    } else if before(x, s[0]) {
      assert key(s[0]) < key(x);
      forall i | 0 <= i < |s| ensures key(s[i]) < key(x) {
        HeadHasLargestKey(s, before, key, i);
      }
      var r := [x] + s;
      assert r[0] == x && r[1..] == s;
      assert WithKey(r, key, k) == tail + WithKey(s, key, k);
      if key(x) == k {
        WithKeyNone(s, key, k);
      }
    } else {
      var head := if key(s[0]) == k then [s[0]] else [];
      var t := Insert(x, s[1..], before);
      assert Ordered(s[1..], before);
      InsertStable(x, s[1..], before, key, k);
      var r := [s[0]] + t;
      assert r[0] == s[0] && r[1..] == t;
      assert WithKey(r, key, k) == head + WithKey(t, key, k);
      assert WithKey(s, key, k) == head + WithKey(s[1..], key, k);
    }
  }

  /**
   * Stability: for every key value, the elements carrying that key appear in the sorted
   * sequence in exactly the order they had in the input.
   */
  lemma {:induction false} SortByStable<T(!new)>(s: seq<T>, before: (T, T) -> bool, key: T -> real, k: real)
    requires RanksByKey(before, key)
    ensures WithKey(SortBy(s, before), key, k) == WithKey(s, key, k)
  {
    if s != [] {
      var init, last := s[..|s| - 1], s[|s| - 1];
      SortByStable(init, before, key, k);
      KeyOrderIsStrict(before, key);
      SortByOrdered(init, before);
      InsertStable(last, SortBy(init, before), before, key, k);
      assert s == init + [last];
      WithKeyAppend(init, [last], key, k);
    }
  }

  /** In an ordered sequence an element that strictly outranks another comes first. */
  lemma OutrankerComesFirst<T(!new)>(s: seq<T>, before: (T, T) -> bool, i: nat, j: nat)
    requires StrictOrder(before)
    requires Ordered(s, before)
    requires i < |s| && j < |s|
    requires before(s[i], s[j])
    ensures i < j
  {
  }
}

=== FILE: task_history_access.dfy ===
/**
 * `TaskHistoryService`: the own-data rule and the user scoping of its queries.  The CRUD layer
 * is not modelled; each operation yields the CRUD request it issues, or the error it raises
 * before issuing any.
 */
module TaskHistoryAccess {
  import opened Wrappers
  import opened Roles

  /** The requesting user. */
  datatype Requester = Requester(id: int, username: string, role: Role)

  /** `PermissionDenied(message)`. */
  datatype PermissionDenied = PermissionDenied(message: string)

  const OwnHistoryOnly := "You can only view your own task history"

  /** `TaskHistoryCreate`: the attempt as submitted by the client. */
  datatype AttemptData = AttemptData(taskId: int, status: string, answer: string, score: real, feedback: Option<string>)

  /** The history row `log_attempt` builds. */
  datatype HistoryEntry = HistoryEntry(
    taskId: int, status: string, answer: string, score: real, feedback: Option<string>, userId: int, timestamp: int)

  /** The CRUD requests the service issues. */
  datatype CrudRequest =
    | Create(entry: HistoryEntry)
    | GetAll(userId: int, status: Option<string>)
    | GetByUserAndTask(userId: int, taskId: int)
    | GetInTimeRange(userId: int, start: int, end: int)
    | GetLatestAttempt(userId: int, taskId: int)

  /** The user id a request reads or writes. */
  function RequestUser(q: CrudRequest): int {
    match q
    case Create(e) => e.userId
    case GetAll(u, _) => u
    case GetByUserAndTask(u, _) => u
    case GetInTimeRange(u, _, _) => u
    case GetLatestAttempt(u, _) => u
  }

  /** `_ensure_own_data`: `None` when access is allowed, otherwise the error raised. */
  function EnsureOwnData(user: Requester, targetUserId: int): (r: Option<PermissionDenied>)
    ensures r.Some? <==> user.role != Admin && user.id != targetUserId
    ensures r.Some? ==> r.value == PermissionDenied(OwnHistoryOnly)
  {
    if user.role != Admin && user.id != targetUserId then Some(PermissionDenied(OwnHistoryOnly))
    else None
  }

  /** `log_attempt`, with `now` the value of `datetime.now()`. */
  function LogAttempt(user: Requester, data: AttemptData, now: int): (q: CrudRequest)
    ensures q.Create? && RequestUser(q) == user.id
    ensures q.entry.taskId == data.taskId && q.entry.status == data.status && q.entry.answer == data.answer
    ensures q.entry.score == data.score && q.entry.feedback == data.feedback && q.entry.timestamp == now
  {
    Create(HistoryEntry(data.taskId, data.status, data.answer, data.score, data.feedback, user.id, now))
  }

  /** `get_user_history`: the check comes before the fetch. */
  function GetUserHistory(currentUser: Requester, targetUserId: int): (r: Result<CrudRequest, PermissionDenied>)
    ensures r.Success? <==> currentUser.role == Admin || currentUser.id == targetUserId
    ensures r.Success? ==> r.value == GetAll(targetUserId, None)
    ensures r.Failure? ==> r.error == PermissionDenied(OwnHistoryOnly)
  {
    match EnsureOwnData(currentUser, targetUserId)
    case Some(e) => Failure(e)
    case None => Success(GetAll(targetUserId, None))
  }

  function GetUserHistoryByStatus(currentUser: Requester, status: string): (q: CrudRequest)
    ensures q.GetAll? && RequestUser(q) == currentUser.id && q.status == Some(status)
  {
    GetAll(currentUser.id, Some(status))
  }

  function GetTaskHistoryForUser(currentUser: Requester, taskId: int): (q: CrudRequest)
    ensures q.GetByUserAndTask? && RequestUser(q) == currentUser.id && q.taskId == taskId
  {
    GetByUserAndTask(currentUser.id, taskId)
  }

  function GetTaskHistoryInPeriod(currentUser: Requester, start: int, end: int): (q: CrudRequest)
    ensures q.GetInTimeRange? && RequestUser(q) == currentUser.id && q.start == start && q.end == end
  {
    GetInTimeRange(currentUser.id, start, end)
  }

  function GetLatestResult(currentUser: Requester, taskId: int): (q: CrudRequest)
    ensures q.GetLatestAttempt? && RequestUser(q) == currentUser.id && q.taskId == taskId
  {
    GetLatestAttempt(currentUser.id, taskId)
  }

  /**
   * Every request the service issues for a user, whatever the other arguments, reads or writes
   * only that user's rows, unless the user is an admin reading another user's full history.
   */
  lemma RequestsScopedToCaller(u: Requester, target: int, status: string, taskId: int, start: int, end: int,
                               data: AttemptData, now: int)
    ensures RequestUser(LogAttempt(u, data, now)) == u.id
    ensures RequestUser(GetUserHistoryByStatus(u, status)) == u.id
    ensures RequestUser(GetTaskHistoryForUser(u, taskId)) == u.id
    ensures RequestUser(GetTaskHistoryInPeriod(u, start, end)) == u.id
    ensures RequestUser(GetLatestResult(u, taskId)) == u.id
    ensures GetUserHistory(u, target).Success? ==> RequestUser(GetUserHistory(u, target).value) == u.id || u.role == Admin
  {
  }

  /** An admin may read any user's history, and the request names the target. */
  lemma AdminReadsAnyHistory(admin: Requester, target: int)
    requires admin.role == Admin
    ensures GetUserHistory(admin, target) == Success(GetAll(target, None))
  {
  }

  /** A non-admin asking for another user's history gets `PermissionDenied` and no request is issued. */
  lemma OthersHistoryDenied(u: Requester, target: int)
    requires u.role != Admin && u.id != target
    ensures GetUserHistory(u, target) == Failure(PermissionDenied(OwnHistoryOnly))
  {
  }
}

=== FILE: task_store.dfy ===
/**
 * The rows the recommendation engine reads, and its SQL queries written as filters over an
 * in-memory copy of the two tables (`tasks` and `task_history`).
 */
module TaskStore {
  import opened Wrappers
  import opened Sequences
  import opened Sorting

  /** Status of an attempt, as far as the engine distinguishes it. */
  datatype Status = Solved | Attempted | OtherStatus

  /** A row of the `tasks` table (the columns the engine selects). */
  datatype CandidateTask = CandidateTask(
    id: int, subject: string, problem: string, solution: string, answer: string, difficulty: int)

  /** A row of the `task_history` table. */
  datatype HistoryRow = HistoryRow(
    userId: int, taskId: int, status: Status, score: Option<real>, timestamp: int)

  /** An attempt joined with its task: `(task_id, status, score, subject, difficulty, problem)`. */
  datatype AttemptRecord = AttemptRecord(
    taskId: int, status: Status, score: Option<real>, subject: string, difficulty: int, problem: string)

  datatype Database = Database(tasks: seq<CandidateTask>, history: seq<HistoryRow>)

  /** The history query reads at most this many attempts. */
  const HistoryLimit: nat := 50

  /** The task a history row joins with (`tasks.id` is the primary key, so the first match). */
  function FindTask(tasks: seq<CandidateTask>, id: int): (r: Option<CandidateTask>)
    ensures r.Some? ==> r.value in tasks && r.value.id == id
    ensures r.None? ==> forall i :: 0 <= i < |tasks| ==> tasks[i].id != id
  {
    if tasks == [] then None
    else if tasks[0].id == id then Some(tasks[0])
    else FindTask(tasks[1..], id)
  }

  /** The user's history rows that survive the inner join with `tasks`. */
  function UserRows(db: Database, userId: int): seq<HistoryRow> {
    Filter(db.history, (r: HistoryRow) => r.userId == userId && FindTask(db.tasks, r.taskId).Some?)
  }

  /** `ORDER BY task_history.timestamp DESC`. */
  predicate NewerFirst(a: HistoryRow, b: HistoryRow) {
    a.timestamp > b.timestamp
  }

  function JoinTask(row: HistoryRow, t: CandidateTask): AttemptRecord {
    AttemptRecord(row.taskId, row.status, row.score, t.subject, t.difficulty, t.problem)
  }

  /** Joins every row with its task; rows without one are dropped, as by an inner join. */
  function JoinAll(tasks: seq<CandidateTask>, rows: seq<HistoryRow>): (r: seq<AttemptRecord>)
    ensures |r| <= |rows|
    ensures (forall i :: 0 <= i < |rows| ==> FindTask(tasks, rows[i].taskId).Some?) ==>
              && |r| == |rows|
              && forall i :: 0 <= i < |r| ==> r[i] == JoinTask(rows[i], FindTask(tasks, rows[i].taskId).value)
  {
    if rows == [] then []
    else
      assert forall i :: 1 <= i < |rows| ==> rows[1..][i - 1] == rows[i];
      match FindTask(tasks, rows[0].taskId)
      case Some(t) => [JoinTask(rows[0], t)] + JoinAll(tasks, rows[1..])
      case None => JoinAll(tasks, rows[1..])
  }

  lemma NewerFirstIsStrict()
    ensures StrictOrder(NewerFirst)
  {
  }

  /** The first `HistoryLimit` rows newest first: rows of the input, in non-increasing timestamp order. */
  lemma NewestRows(rows: seq<HistoryRow>)
    ensures var r := Take(SortBy(rows, NewerFirst), HistoryLimit);
            && (forall i :: 0 <= i < |r| ==> r[i] in rows)
            && (forall i, j :: 0 <= i < j < |r| ==> r[j].timestamp <= r[i].timestamp)
            && (|rows| <= HistoryLimit ==> multiset(r) == multiset(rows))
  {
    SortByPermutation(rows, NewerFirst);
    NewerFirstIsStrict();
    SortByOrdered(rows, NewerFirst);
    var sorted := SortBy(rows, NewerFirst);
    assert forall i :: 0 <= i < |sorted| ==> sorted[i] in multiset(rows);
    assert |rows| <= HistoryLimit ==> Take(sorted, HistoryLimit) == sorted;
  }

  /** `ORDER BY task_history.timestamp DESC LIMIT 50` over the user's joined rows. */
  function RecentRows(db: Database, userId: int): (r: seq<HistoryRow>)
    ensures |r| == if HistoryLimit <= |UserRows(db, userId)| then HistoryLimit else |UserRows(db, userId)|
    ensures forall i :: 0 <= i < |r| ==> r[i] in UserRows(db, userId)
    ensures forall i, j :: 0 <= i < j < |r| ==> r[j].timestamp <= r[i].timestamp
    ensures |UserRows(db, userId)| <= HistoryLimit ==> multiset(r) == multiset(UserRows(db, userId))
  {
    NewestRows(UserRows(db, userId));
    Take(SortBy(UserRows(db, userId), NewerFirst), HistoryLimit)
  }

  /**
   * `_get_user_history`: the user's attempts joined with their tasks, newest first, at most
   * `HistoryLimit` of them; each record carries its row's status and score and its task's
   * subject, difficulty and problem.
   */
  function RecentHistory(db: Database, userId: int): (h: seq<AttemptRecord>)
    ensures |h| <= HistoryLimit
    ensures |h| == |RecentRows(db, userId)|
    ensures forall i :: 0 <= i < |h| ==>
              && FindTask(db.tasks, RecentRows(db, userId)[i].taskId).Some?
              && h[i] == JoinTask(RecentRows(db, userId)[i], FindTask(db.tasks, RecentRows(db, userId)[i].taskId).value)
  {
    var rows := RecentRows(db, userId);
    forall i | 0 <= i < |rows| ensures FindTask(db.tasks, rows[i].taskId).Some? {
      var user := UserRows(db, userId);
      var k :| 0 <= k < |user| && user[k] == rows[i];
    }
    JoinAll(db.tasks, rows)
  }

  /** The `task_id`s of every row the user has in `task_history` (the unlimited subquery). */
  function AttemptedIds(db: Database, userId: int): set<int> {
    set r | r in db.history && r.userId == userId :: r.taskId
  }

  /** `_get_all_unsolved_tasks`: tasks whose id is not among the user's attempted ids. */
  function UnsolvedTasks(db: Database, userId: int): (r: seq<CandidateTask>)
    ensures forall t :: t in r <==> t in db.tasks && t.id !in AttemptedIds(db, userId)
  {
    Filter(db.tasks, (t: CandidateTask) => t.id !in AttemptedIds(db, userId))
  }

  /** `_get_candidate_tasks`: unsolved tasks, restricted to the preferred subjects when there are any. */
  function CandidateTasks(db: Database, userId: int, preferred: seq<string>): (r: seq<CandidateTask>)
    ensures forall t :: t in r <==> t in db.tasks && t.id !in AttemptedIds(db, userId) && (preferred == [] || t.subject in preferred)
  {
    if preferred == [] then UnsolvedTasks(db, userId)
    else Filter(db.tasks, (t: CandidateTask) => t.id !in AttemptedIds(db, userId) && t.subject in preferred)
  }

  /** The `solved_counts` CTE with `COALESCE(cnt, 0)`: how many `solved` rows, by any user, name the task. */
  function SolvedCount(db: Database, taskId: int): nat {
    |Filter(db.history, (r: HistoryRow) => r.taskId == taskId && r.status == Solved)|
  }

  /** A row of the cold-start query: a task with its `s_cnt` column. */
  datatype PopularRow = PopularRow(task: CandidateTask, solvedCount: nat)

  /** `ORDER BY s_cnt DESC, difficulty`. */
  predicate MorePopular(a: PopularRow, b: PopularRow) {
    || a.solvedCount > b.solvedCount
    || (a.solvedCount == b.solvedCount && a.task.difficulty < b.task.difficulty)
  }

  /** `WHERE difficulty >= 2 AND difficulty <= 3`. */
  predicate MediumDifficulty(t: CandidateTask) {
    2 <= t.difficulty <= 3
  }

  function MediumTasks(db: Database): seq<CandidateTask> {
    Filter(db.tasks, MediumDifficulty)
  }

  function PopularityRows(db: Database): (r: seq<PopularRow>)
    ensures |r| == |MediumTasks(db)|
    ensures forall i :: 0 <= i < |r| ==>
              r[i].task in db.tasks && MediumDifficulty(r[i].task) && r[i].solvedCount == SolvedCount(db, r[i].task.id)
    ensures forall t :: t in MediumTasks(db) ==> PopularRow(t, SolvedCount(db, t.id)) in r
  {
    var medium := MediumTasks(db);
    var r := seq(|medium|, i requires 0 <= i < |medium| => PopularRow(medium[i], SolvedCount(db, medium[i].id)));
    assert forall i :: 0 <= i < |medium| ==> r[i] == PopularRow(medium[i], SolvedCount(db, medium[i].id));
    r
  }

  /** The cold-start query of `_get_default_recommendations` with `LIMIT limit`. */
  function PopularQuery(db: Database, limit: nat): (r: seq<PopularRow>)
    ensures |r| == if limit <= |MediumTasks(db)| then limit else |MediumTasks(db)|
    ensures forall i :: 0 <= i < |r| ==>
              r[i].task in db.tasks && MediumDifficulty(r[i].task) && r[i].solvedCount == SolvedCount(db, r[i].task.id)
  {
    var rows := PopularityRows(db);
    SortByPermutation(rows, MorePopular);
    var sorted := SortBy(rows, MorePopular);
    assert forall i :: 0 <= i < |sorted| ==> sorted[i] in multiset(rows);
    Take(sorted, limit)
  }

  // ---------------------------------------------------------------------------------------
  // Properties of the queries

  lemma MorePopularIsStrict()
    ensures StrictOrder(MorePopular)
  {
  }

  /**
   * The cold-start query keeps the most popular rows: a medium task whose row was cut by the
   * `LIMIT` does not rank ahead of any row that was kept.
   */
  lemma PopularQueryKeepsTop(db: Database, limit: nat, t: CandidateTask, i: nat)
    requires t in MediumTasks(db)
    requires PopularRow(t, SolvedCount(db, t.id)) !in PopularQuery(db, limit)
    requires i < |PopularQuery(db, limit)|
    ensures !MorePopular(PopularRow(t, SolvedCount(db, t.id)), PopularQuery(db, limit)[i])
  {
    var rows := PopularityRows(db);
    var sorted := SortBy(rows, MorePopular);
    var kept := PopularQuery(db, limit);
    var row := PopularRow(t, SolvedCount(db, t.id));
    SortByPermutation(rows, MorePopular);
    MorePopularIsStrict();
    SortByOrdered(rows, MorePopular);
    assert row in multiset(sorted);
    var k :| 0 <= k < |sorted| && sorted[k] == row;
    assert k >= |kept|;
    assert kept[i] == sorted[i];
  }

  /** The history query returns at most 50 attempts, and returns none exactly when the user has no joined row. */
  lemma RecentHistoryShape(db: Database, userId: int)
    ensures |RecentHistory(db, userId)| <= HistoryLimit
    ensures RecentHistory(db, userId) == [] <==> UserRows(db, userId) == []
  {
  }

  /** A joined row of the user that the limit dropped is no newer than any row it kept. */
  lemma RecentRowsNewest(db: Database, userId: int, row: HistoryRow)
    requires row in UserRows(db, userId) && row !in RecentRows(db, userId)
    ensures forall i :: 0 <= i < |RecentRows(db, userId)| ==> row.timestamp <= RecentRows(db, userId)[i].timestamp
  {
    var rows := UserRows(db, userId);
    var sorted := SortBy(rows, NewerFirst);
    var kept := RecentRows(db, userId);
    SortByPermutation(rows, NewerFirst);
    NewerFirstIsStrict();
    SortByOrdered(rows, NewerFirst);
    assert row in multiset(sorted);
    var k :| 0 <= k < |sorted| && sorted[k] == row;
    assert k >= |kept|;
    forall i | 0 <= i < |kept| ensures row.timestamp <= kept[i].timestamp {
      assert !NewerFirst(sorted[k], sorted[i]);
    }
  }

  /** Every attempt in the recent history names a task the user has attempted. */
  lemma RecentHistoryAttempted(db: Database, userId: int)
    ensures forall a :: a in RecentHistory(db, userId) ==> a.taskId in AttemptedIds(db, userId)
  {
    var rows := RecentRows(db, userId);
    var h := RecentHistory(db, userId);
    forall a | a in h ensures a.taskId in AttemptedIds(db, userId) {
      var i :| 0 <= i < |h| && h[i] == a;
      assert rows[i] in UserRows(db, userId);
      assert rows[i] in db.history;
    }
  }

  /** No unsolved task was ever attempted by the user, however old the attempt. */
  lemma UnsolvedNeverAttempted(db: Database, userId: int, preferred: seq<string>)
    ensures forall t :: t in UnsolvedTasks(db, userId) ==> t.id !in AttemptedIds(db, userId)
    ensures forall t :: t in CandidateTasks(db, userId, preferred) ==>
              t.id !in AttemptedIds(db, userId) && (preferred != [] ==> t.subject in preferred)
  {
  }
}

=== FILE: translation.dfy ===
/**
 * `TranslationService._looks_english` and `translate_if_english`.  The language detector, when
 * installed, is a parameter; `str.isalpha` is a parameter too, of which only its truth on the
 * ASCII letters matters.
 */
module Translation {
  import opened Wrappers

  /** `str.isalpha` holds for every ASCII letter. */
  ghost predicate ValidIsAlpha(isAlpha: char -> bool) {
    forall c :: ('A' <= c <= 'Z' || 'a' <= c <= 'z') ==> isAlpha(c)
  }

  /** `c.isalpha() and 'A' <= c <= 'Z' or 'a' <= c <= 'z'`, with `and` binding tighter than `or`. */
  predicate LatinTest(isAlpha: char -> bool, c: char) {
    (isAlpha(c) && 'A' <= c <= 'Z') || ('a' <= c <= 'z')
  }

  predicate AsciiLetter(c: char) {
    'A' <= c <= 'Z' || 'a' <= c <= 'z'
  }

  /** `'А' <= c <= 'я' or c == 'ё' or c == 'Ё'` (U+0410..U+044F, U+0451, U+0401). */
  predicate Cyrillic(c: char) {
    '\U{0410}' <= c <= '\U{044F}' || c == '\U{0451}' || c == '\U{0401}'
  }

  function LatinCount(text: string, isAlpha: char -> bool): (n: nat)
    ensures n <= |text|
  {
    if text == [] then 0 else (if LatinTest(isAlpha, text[0]) then 1 else 0) + LatinCount(text[1..], isAlpha)
  }

  function AsciiLetterCount(text: string): (n: nat)
    ensures n <= |text|
  {
    if text == [] then 0 else (if AsciiLetter(text[0]) then 1 else 0) + AsciiLetterCount(text[1..])
  }

  function CyrillicCount(text: string): (n: nat)
    ensures n <= |text|
  {
    if text == [] then 0 else (if Cyrillic(text[0]) then 1 else 0) + CyrillicCount(text[1..])
  }

  /** The heuristic used when no detector is installed or the detector raises. */
  predicate FallbackLooksEnglish(text: string, isAlpha: char -> bool) {
    LatinCount(text, isAlpha) > CyrillicCount(text)
  }

  /**
   * `_looks_english`: `detector(text)` is the detected language code, or `None` when detection
   * raises; `detector` itself is `None` when langdetect is not installed.
   */
  function LooksEnglish(text: string, detector: Option<string -> Option<string>>, isAlpha: char -> bool): (b: bool)
    ensures detector.None? ==> (b <==> LatinCount(text, isAlpha) > CyrillicCount(text))
    ensures detector.Some? && detector.value(text).Some? ==> (b <==> detector.value(text).value == "en")
    ensures detector.Some? && detector.value(text).None? ==> (b <==> LatinCount(text, isAlpha) > CyrillicCount(text))
  {
    match detector
    case Some(detect) =>
      (match detect(text)
       case Some(lang) => lang == "en"
       case None => FallbackLooksEnglish(text, isAlpha))
    case None => FallbackLooksEnglish(text, isAlpha)
  }

  /** `translate_if_english`; `translate` stands for `translate_text`. */
  function TranslateIfEnglish(text: string, detector: Option<string -> Option<string>>, isAlpha: char -> bool,
                              translate: string -> string): (r: string)
    ensures !LooksEnglish(text, detector, isAlpha) ==> r == text
    ensures LooksEnglish(text, detector, isAlpha) ==> r == translate(text)
  {
    if LooksEnglish(text, detector, isAlpha) then translate(text) else text
  }

  /** The Latin test counts exactly the ASCII letters. */
  lemma {:induction false} LatinCountsAsciiLetters(text: string, isAlpha: char -> bool)
    requires ValidIsAlpha(isAlpha)
    ensures LatinCount(text, isAlpha) == AsciiLetterCount(text)
  {
    if text != [] {
      LatinCountsAsciiLetters(text[1..], isAlpha);
    }
  }

  /**
   * No character passes both the Latin test and the Cyrillic test, so each character is counted
   * at most once and the two counts together never exceed the length.
   */
  lemma {:induction false} CountsDisjoint(text: string, isAlpha: char -> bool)
    ensures forall i :: 0 <= i < |text| ==> !(LatinTest(isAlpha, text[i]) && Cyrillic(text[i]))
    ensures LatinCount(text, isAlpha) + CyrillicCount(text) <= |text|
  {
    if text != [] {
      CountsDisjoint(text[1..], isAlpha);
      assert forall i :: 1 <= i < |text| ==> text[i] == text[1..][i - 1];
    }
  }

  /** Without a detector the text looks English exactly when it has more ASCII letters than Cyrillic ones. */
  lemma NoDetector(text: string, isAlpha: char -> bool)
    requires ValidIsAlpha(isAlpha)
    ensures LooksEnglish(text, None, isAlpha) <==> AsciiLetterCount(text) > CyrillicCount(text)
  {
    LatinCountsAsciiLetters(text, isAlpha);
  }

  /** Empty text, and text without ASCII letters, never looks English to the heuristic. */
  lemma NoLatinNotEnglish(text: string, isAlpha: char -> bool)
    requires ValidIsAlpha(isAlpha)
    requires forall i :: 0 <= i < |text| ==> !AsciiLetter(text[i])
    ensures !FallbackLooksEnglish(text, isAlpha)
    ensures !FallbackLooksEnglish("", isAlpha)
  {
    LatinCountsAsciiLetters(text, isAlpha);
    NoAsciiLetters(text);
  }

  lemma {:induction false} NoAsciiLetters(text: string)
    requires forall i :: 0 <= i < |text| ==> !AsciiLetter(text[i])
    ensures AsciiLetterCount(text) == 0
  {
    if text != [] {
      NoAsciiLetters(text[1..]);
    }
  }

  /** Text that does not look English is passed through unchanged. */
  lemma NotEnglishUnchanged(text: string, isAlpha: char -> bool, translate: string -> string)
    requires ValidIsAlpha(isAlpha)
    requires AsciiLetterCount(text) <= CyrillicCount(text)
    ensures TranslateIfEnglish(text, None, isAlpha, translate) == text
  {
    NoDetector(text, isAlpha);
  }
}

=== FILE: wrappers.dfy ===
/** Optional values and success-or-error outcomes, shared by the modules of the model. */
module Wrappers {

  /** A value that may be absent: SQL NULL, a missing keyword argument, a Python `None`. */
  datatype Option<+T> = None | Some(value: T)

  /** The outcome of an operation that either returns a value or raises an error. */
  datatype Result<+T, +E> = Success(value: T) | Failure(error: E)
}
